=== FILE: README.md ===
# Heart-CT segmentation pipeline scripts, modelled in Dafny

This project models the deterministic core of the batch scripts in a
heart-CT segmentation pipeline built around nnU-Net. The scripts live in
`src/inference`, `src/postprocess`, `src/preprocess` and `src/utils`.
There is one module per script, plus small shared modules:

- `Ensemble` (`ensemble.py`) fuses three models' class probabilities with
  the weights 3.2, 1.0 and 0. A missing New-F1 or 2D source is replaced by
  zeros. Channels 2 (aortic valve) and 3 (calcification) are boosted by
  1.15. The label is the first arg-max over the class axis. The reference
  image is looked up as `<case>_0000.nii.gz`, then as `<case>.nii.gz`.
  When the shapes differ, the mask is transposed once with the axes
  reversed. A case with no reference is reported and not written.
- `PostProcess` (`post_process.py`) keeps, for every listed non-zero
  label, only the largest 26-connected component of that label. Equal sizes
  go to the lowest component number.
- `CleanLabels` (`clean_labels.py`) clears all label-1 voxels and writes
  back the label-1 components of at least 100 voxels. The file is then cast
  to uint8.
- `SelectPseudo` (`select_pseudo.py`) scores each probability map. The
  score is the mean winning probability over the foreground, halved below
  5000 myocardium voxels, and 0 on a load error or with no foreground.
  Cases are ranked by a stable descending sort and the first five are
  taken.
- `DatasetJson` (`fix_dataset_json.py`) rebuilds `dataset.json`. It pairs
  each sorted image with the label named by replacing `_0000.nii.gz` with
  `.nii.gz`, counts the pairs, and keeps the old header or falls back to
  defaults.
- `MovePseudo` (`move_pseudo.py`) plans the copies of each selected case's
  image and predicted mask into the training folders, both files or
  neither.
- `PackSubmission` (`pack_submission.py`) renames every `.nii.gz` file to
  `<text before the first dot>_predict.nii.gz` and archives the files under
  their bare names.

Shared modules:

- `Strings` models Python's `endswith`, `in`, `replace`, `split('.')[0]`
  and string order.
- `Sorting` models Python's stable sort, as a stable insertion sort.
- `Reduce` models `np.argmax` and `np.sum` of a mask.
- `Volumes` models rank-3 arrays with a shape and `transpose(2, 1, 0)`.
- `Components` models connected-component labelling, taken abstractly.
- `Wrappers` holds `Option`.

Conventions:

- Voxel labels are `int`, probabilities are `real`, and file names are
  strings.
- Directories are maps or sets of names. A directory listing is a
  parameter in whatever order the system gives it.
- Connected-component labelling (scikit-image) is a function parameter.
  The model states what the scripts rely on about it:
  - `Components.Sound`: the labelling numbers exactly the mask's voxels,
    with numbers 1 to `count`.
  - `Components.Stable`: a single non-empty component, labelled again on its own, is
    one component. Only the idempotence lemma uses this.

Facts about the code that the lemmas make explicit:

- Channels 2 and 3 are boosted by the same factor, so an exact 2/3 tie
  stays with channel 2 (`Ensemble.BoostBothKeepsWinner`).
- After the single transposition the shape is not checked again. A
  reference that fits neither orientation still receives the mask
  (`Ensemble.FitToReference`).
- The main source is always loaded, so a case never fails for lack of
  sources.
- `w_new1_act` and `w_2d_act` are assigned but never read. A missing
  source contributes through its zero array, which gives the same values
  as leaving it out (`Ensemble.FuseEqualsPresentSources`).

## Model

| member | source | states |
|---|---|---|
| Strings.WithSuffix | src/inference/ensemble.py:41 | the comprehension keeps exactly the listed names that end with the suffix, and never more names than listed |
| Strings.WithSuffixMultiplicity | src/inference/ensemble.py:41 | every name with the suffix is kept as often as it is listed, and no other name is kept |
| Strings.WithSuffixAppend | src/inference/ensemble.py:41 | the comprehension keeps listing order: a name added at the end of the listing is added at the end of the result exactly when it has the suffix |
| Strings.EndsWith | src/inference/ensemble.py:41 | `str.endswith`: the last characters are the suffix; `Strings.WithSuffix` states what the comprehension keeps with it |
| Strings.Contains | src/utils/fix_dataset_json.py:63 | the `in` test on strings: the pattern occurs at some position; `DatasetJson.LabelNameIsReplace` relates it to `replace` |
| Strings.ReplaceAll | src/utils/fix_dataset_json.py:64 | `str.replace`, left to right without overlap; `Strings.ReplaceAbsent` and `Strings.ReplaceDottedSuffix` state what it does to the names of the scripts |
| Strings.BeforeFirst | src/postprocess/pack_submission.py:21 | `split('.')[0]` is a prefix without the separator, followed in the input by the separator when it is shorter |
| Strings.ReplaceAbsent | src/utils/fix_dataset_json.py:63-66 | `replace` of a pattern that does not occur returns the string unchanged |
| Strings.ReplaceDottedSuffix | src/inference/ensemble.py:76-77 | for a dot-free stem, replacing a dotted suffix rewrites only that suffix |
| Strings.BeforeFirstOfStem | src/postprocess/pack_submission.py:21 | the text before the first dot of `c + ".…"` is `c` for a dot-free `c` |
| Strings.LexLess | src/utils/fix_dataset_json.py:17-18 | Python's character-by-character string order; `Strings.LexLessIsStrictWeakOrder` states that it is a strict weak order |
| Strings.LexLessIsStrictWeakOrder | src/utils/fix_dataset_json.py:17-18 | Python's string order is asymmetric and its negation is transitive, so `sorted` is well defined on file names |
| Sorting.SortBy | src/preprocess/select_pseudo.py:84 | the sort returns a permutation of its input |
| Sorting.SortBySorted | src/preprocess/select_pseudo.py:84 | the sorted list has no element that must come before an earlier one |
| Sorting.SortByStable | src/preprocess/select_pseudo.py:84 | elements that compare equal keep their input order (Python's sort is stable) |
| Reduce.ArgMax | src/inference/ensemble.py:73 | `np.argmax` is an index of a maximal value, strictly above every earlier value, so ties go to the lowest index |
| Reduce.Count | src/preprocess/clean_labels.py:45 | `np.sum(mask)` is at most the voxel count and is 0 exactly when no voxel matches |
| Reduce.CountSnoc | src/preprocess/select_pseudo.py:54 | the count of a sequence is the count of all but its last element, plus one when the last element matches |
| Reduce.CountAsSet | src/preprocess/select_pseudo.py:54 | `np.sum(seg == x)` is the number of positions holding `x` |
| Reduce.CountMonotone | src/preprocess/clean_labels.py:61 | a mask that holds only where another holds has no more voxels |
| Volumes.Transpose | src/inference/ensemble.py:87 | `transpose(2, 1, 0)` reverses the shape, and voxel (i, j, k) of the result is voxel (k, j, i) of the input |
| Volumes.TransposeInvolution | src/inference/ensemble.py:87 | transposing twice gives back the original mask |
| Components.LabelMask | src/postprocess/post_process.py:26 | `volume == label_val` holds at exactly the voxels with that label |
| Components.Sizes | src/postprocess/post_process.py:35 | one entry per component 1 to `num_features`, entry `i` the number of voxels carrying component `i + 1`; `Components.Largest` states what the arg-max of it picks |
| Components.ComponentMask | src/postprocess/post_process.py:39 | `labeled_mask == largest_component_label` holds at exactly the voxels of that component |
| Components.Largest | src/postprocess/post_process.py:35-36 | `argmax(sizes) + 1` is a component number, of maximal size, and smaller than every other component of that size |
| Ensemble.ZerosLike | src/inference/ensemble.py:53 | `np.zeros_like(data_main)` conforms to the main array and is 0 everywhere |
| Ensemble.BoostBoth | src/inference/ensemble.py:69-70 | channels 2 and 3 are multiplied by 1.15, and channels 0, 1 and any others are unchanged |
| Ensemble.BoostVoxel | src/inference/ensemble.py:69-70 | `final_probs[c] *= factor` at one voxel: class `c` is scaled by the factor and every other class is unchanged |
| Ensemble.FuseVoxel | src/inference/ensemble.py:65 | the weighted sum at one voxel, one value per class; `Ensemble.FuseEqualsPresentSources` and `Ensemble.TwoDModelIgnored` state what it means when sources are missing or weighted 0 |
| Ensemble.FuseEqualsPresentSources | src/inference/ensemble.py:50-65 | with a missing source replaced by zeros, each fused value equals the weighted sum over the sources actually present |
| Ensemble.TwoDModelIgnored | src/inference/ensemble.py:65 | because `w_2d = 0`, the 2D model's probabilities never change the predicted mask |
| Ensemble.BoostKeepsWinner | src/inference/ensemble.py:69-73 | with a non-negative value and a factor of at least 1, a class that wins a voxel still wins it after its boost |
| Ensemble.BoostBothKeepsWinner | src/inference/ensemble.py:69-73 | when channel 2 or 3 already wins with a non-negative value, the two equal boosts keep the winner; a 2/3 tie stays with 2 |
| Ensemble.Fuse | src/inference/ensemble.py:65 | the fused array conforms to the main array, and every voxel is the weighted sum of the three sources |
| Ensemble.Boost | src/inference/ensemble.py:69-70 | boosting a channel of the whole array keeps its shape and boosts that channel at every voxel |
| Ensemble.LabelMap | src/inference/ensemble.py:73 | the mask has the spatial shape, and each voxel is a class index below C, namely that voxel's arg-max |
| Ensemble.Predict | src/inference/ensemble.py:65-73 | fusion, both boosts and arg-max give a valid mask of the main array's spatial shape |
| Ensemble.PredictAt | src/inference/ensemble.py:65-73 | each predicted voxel is the lowest index of a maximal boosted fused value |
| Ensemble.CandidateNames | src/inference/ensemble.py:76-77 | for `<c>.npz` the reference candidates are `<c>_0000.nii.gz` and `<c>.nii.gz` |
| Ensemble.NiftiName | src/inference/ensemble.py:76 | the `.npz` extension replaced by `.nii.gz`; `Ensemble.CandidateNames` gives it for `<c>.npz` |
| Ensemble.RawName | src/inference/ensemble.py:77 | the `.npz` extension replaced by `_0000.nii.gz`; `Ensemble.CandidateNames` gives it for `<c>.npz` |
| Ensemble.ReferencePath | src/inference/ensemble.py:80-83 | a reference is found exactly when one of the two names exists; the `_0000` name is preferred |
| Ensemble.Source | src/inference/ensemble.py:49-62 | a source's array for the case, or zeros like the main array when its file is missing; either way it conforms to the main array |
| Ensemble.CaseMask | src/inference/ensemble.py:46-73 | the mask computed for a case has the main array's spatial shape |
| Ensemble.FitToReference | src/inference/ensemble.py:86-87 | one transposition on a shape mismatch; the written shape is the original or its reverse, and a shape that fits neither orientation is not rechecked |
| Ensemble.CaseOutcome | src/inference/ensemble.py:76-94 | a case is reported exactly when neither reference exists; otherwise `<case>.nii.gz` is written, and its mask is the predicted mask of the case fitted to the reference that was found |
| Ensemble.SavedCell | src/inference/ensemble.py:73-94 | a voxel of the written mask is the computed mask's voxel at the same index, or at the reversed index when the mask was transposed |
| Ensemble.SavedVoxel | src/inference/ensemble.py:65-94 | every written voxel is the first arg-max of the boosted fused probabilities at the corresponding voxel of the case |
| Ensemble.ProcessCase | src/inference/ensemble.py:44-94 | the loop body, reassigning `final_probs` and `seg_mask`, produces the case's outcome |
| Ensemble.EnsembleAll | src/inference/ensemble.py:41-94 | one outcome per `.npz` file, in listing order (`Strings.WithSuffixAppend`), each the case's outcome |
| PostProcess.KeepLargest | src/postprocess/post_process.py:16-42 | every output voxel is 0 or its input label, and background or unlisted labels become 0 |
| PostProcess.KeepLargestConnectedComponent | src/postprocess/post_process.py:16-42 | the zero-initialised array, filled label by label in place, ends equal to `PostProcess.KeepLargest` |
| PostProcess.OutputIsLargestComponent | src/postprocess/post_process.py:31-40 | for each listed label present, its output voxels are exactly one component of maximal size, the lowest-numbered among equals |
| PostProcess.CountDoesNotGrow | src/postprocess/post_process.py:26-40 | no label has more voxels after the cleanup than before |
| PostProcess.LabelOrderIrrelevant | src/postprocess/post_process.py:22-40 | the order of `labels_info` does not change the result |
| PostProcess.Idempotent | src/postprocess/post_process.py:16-42 | with a labeller that keeps a lone non-empty component whole, cleaning the cleaned volume changes nothing |
| PostProcess.StaysLargest | src/postprocess/post_process.py:31-40 | a voxel kept by the cleanup lies in the largest component of its label in the cleaned volume |
| PostProcess.ScriptOutputLabels | src/postprocess/post_process.py:45-57 | with the labels 1, 2 and 3 of `labels_info`, the output holds only values 0 to 3, and any other input label becomes background |
| CleanLabels.ToUint8 | src/preprocess/clean_labels.py:72 | the cast lands in 0..255 and keeps values already in that range |
| CleanLabels.Rewrite | src/preprocess/clean_labels.py:55-58 | kept voxels become 1, other label-1 voxels become 0, and every other voxel keeps its value |
| CleanLabels.Cast | src/preprocess/clean_labels.py:72 | `astype(np.uint8)` applied voxel by voxel, keeping the length |
| CleanLabels.RemoveSmallObjects | src/preprocess/clean_labels.py:51 | the kept mask is part of the input mask |
| CleanLabels.Clean | src/preprocess/clean_labels.py:39-72 | non-1 voxels keep their value up to the cast, a label-1 voxel ends as 0 or 1, and a uint8 volume gains no label-1 voxel |
| CleanLabels.RewriteMyocardium | src/preprocess/clean_labels.py:55-58 | the two masked assignments in place give `Rewrite` of the old contents |
| CleanLabels.CastToUint8 | src/preprocess/clean_labels.py:72 | the in-place cast gives `Cast` of the old contents |
| CleanLabels.CleanFile | src/preprocess/clean_labels.py:39-72 | the rewritten copy equals `Clean`, and the logged removed count is non-negative and equals original minus kept |
| CleanLabels.ComponentsBySize | src/preprocess/clean_labels.py:49-51 | a label-1 component of fewer than 100 voxels vanishes, and one of at least 100 is kept whole |
| CleanLabels.CleanDirectory | src/preprocess/clean_labels.py:29-81 | every `.nii.gz` file is replaced by its cleaned data, and every other file is untouched |
| SelectPseudo.MaxProb | src/preprocess/select_pseudo.py:45 | `data.max(axis=0)` at a voxel is one of its values and at least every value |
| SelectPseudo.Seg | src/preprocess/select_pseudo.py:34 | one class per voxel, the arg-max of that voxel's probabilities |
| SelectPseudo.ForegroundVoxels | src/preprocess/select_pseudo.py:38 | the voxels of `foreground_mask`, each exactly once, in increasing order |
| SelectPseudo.ForegroundVoxelsEmpty | src/preprocess/select_pseudo.py:38-41 | there is no foreground voxel exactly when no voxel's winner is a foreground class |
| SelectPseudo.ForegroundProbs | src/preprocess/select_pseudo.py:38-49 | one element per foreground voxel, in voxel order, each the winning probability of that voxel; empty exactly when no voxel's winner is a foreground class |
| SelectPseudo.ForegroundProbsWinners | src/preprocess/select_pseudo.py:45-49 | every foreground probability is the winning probability of some foreground voxel |
| SelectPseudo.MyocardiumCount | src/preprocess/select_pseudo.py:54 | `np.sum(seg == 1)` is the number of voxels whose winning class is 1, and 0 exactly when no voxel's winner is 1 |
| SelectPseudo.MyocardiumVoxels | src/preprocess/select_pseudo.py:34-54 | counting 1s in `seg` counts the voxels whose arg-max is 1 |
| SelectPseudo.ConfidenceScore | src/preprocess/select_pseudo.py:24-61 | 0.0 on a load error, with no classes or with no foreground; otherwise the foreground mean, halved exactly when myocardium has fewer than 5000 voxels |
| SelectPseudo.MeanBounds | src/preprocess/select_pseudo.py:50 | the mean of values in [0, 1] lies in [0, 1] |
| SelectPseudo.Mean | src/preprocess/select_pseudo.py:50 | `np.mean` of a non-empty list; `SelectPseudo.MeanBounds` and `SelectPseudo.MeanPositive` bound it |
| SelectPseudo.MeanPositive | src/preprocess/select_pseudo.py:50 | the mean of positive values is positive |
| SelectPseudo.ScoreInUnitInterval | src/preprocess/select_pseudo.py:45-57 | with probabilities in [0, 1], every score lies in [0, 1] |
| SelectPseudo.ScorePositiveIffForeground | src/preprocess/select_pseudo.py:34-57 | with non-negative probabilities, a loaded map scores above 0 exactly when it has a foreground voxel |
| SelectPseudo.ForegroundWinnerPositive | src/preprocess/select_pseudo.py:38-45 | with non-negative probabilities, a foreground voxel's winning probability is positive |
| SelectPseudo.CaseIdOfNpz | src/preprocess/select_pseudo.py:77 | the case id of `<c>.npz` is `c` |
| SelectPseudo.CaseId | src/preprocess/select_pseudo.py:77 | `.npz` removed from the file name; `SelectPseudo.CaseIdOfNpz` gives it for `<c>.npz` |
| SelectPseudo.Score | src/preprocess/select_pseudo.py:71-78 | the pair `(score, case_id)` appended for one file; `SelectPseudo.ScoreAll` lists one per file |
| SelectPseudo.HigherIsStrictWeakOrder | src/preprocess/select_pseudo.py:84 | "higher score first" is a strict weak order |
| SelectPseudo.RankingStable | src/preprocess/select_pseudo.py:84 | entries of equal score keep their listing order after the sort |
| SelectPseudo.ScoreAll | src/preprocess/select_pseudo.py:71-78 | one scored entry per file, in order |
| SelectPseudo.ScoreFiles | src/preprocess/select_pseudo.py:66-78 | the append loop builds `scores` one entry per file, in listing order |
| SelectPseudo.TakeTop | src/preprocess/select_pseudo.py:90-94 | `min(TOP_K, len(scores))` case ids, those of the first entries |
| SelectPseudo.SelectCases | src/preprocess/select_pseudo.py:66-94 | the ranking is a permutation of the scores with non-increasing scores; `min(5, n)` cases are selected, and every selected score is at least every unselected one |
| DatasetJson.NiftiFiles | src/utils/fix_dataset_json.py:17-18 | every listed `.nii.gz` name occurs as often as it is listed, no other name occurs, and the list is in sorted order |
| DatasetJson.HeaderLabels | src/utils/fix_dataset_json.py:33-52 | the old `labels`, else the four default classes, also when the file is unreadable |
| DatasetJson.HeaderChannels | src/utils/fix_dataset_json.py:33-52 | the old `channel_names`, else `{"0": "CT"}` |
| DatasetJson.DefaultLabels | src/utils/fix_dataset_json.py:36-52 | the default labels name background, myocardium, aortic_valve and calcification |
| DatasetJson.LabelNameIsReplace | src/utils/fix_dataset_json.py:63-66 | the guarded replacement equals the unguarded one: without the substring the name is kept |
| DatasetJson.LabelNameOfImage | src/utils/fix_dataset_json.py:63-64 | `<c>_0000.nii.gz` expects the label `<c>.nii.gz` |
| DatasetJson.LabelNameFor | src/utils/fix_dataset_json.py:63-66 | the expected label name; `DatasetJson.LabelNameIsReplace` and `DatasetJson.LabelNameOfImage` state what it is |
| DatasetJson.Pairing | src/utils/fix_dataset_json.py:58-76 | the entries appended by the loop; `DatasetJson.PairingMembership`, `DatasetJson.PairingSound` and `DatasetJson.PairingComplete` state which images get one |
| DatasetJson.EntryFor | src/utils/fix_dataset_json.py:70-73 | an entry is `./imagesTr/` + image and `./labelsTr/` + expected label |
| DatasetJson.BuildTraining | src/utils/fix_dataset_json.py:55-76 | the loop builds the pairing, and `count` equals its length |
| DatasetJson.PairingSound | src/utils/fix_dataset_json.py:69-76 | every entry belongs to a listed image whose label exists |
| DatasetJson.PairingComplete | src/utils/fix_dataset_json.py:69-76 | every listed image whose label exists has its entry |
| DatasetJson.PairingMembership | src/utils/fix_dataset_json.py:69-76 | an image is in `training` if and only if its expected label is listed |
| DatasetJson.PairingAtMostImages | src/utils/fix_dataset_json.py:58-76 | `numTraining` never exceeds the number of images |
| DatasetJson.PairedLabelsFacts | src/utils/fix_dataset_json.py:69-74 | one listed label per entry, distinct when the images expect distinct labels |
| DatasetJson.PairingAtMostLabels | src/utils/fix_dataset_json.py:69-76 | `numTraining` never exceeds the number of labels when no two images expect the same label |
| DatasetJson.TwoImagesOneLabel | src/utils/fix_dataset_json.py:63-76 | for a dot-free case name `c` shorter than five characters, `<c>.nii.gz` and `<c>_0000.nii.gz` both pair with the single label `<c>.nii.gz`, giving two entries |
| DatasetJson.PairingSorted | src/utils/fix_dataset_json.py:58-76 | sorted images give entries in image order |
| DatasetJson.NewEntryAfter | src/utils/fix_dataset_json.py:58-73 | with sorted images, the entry of the last image never sorts before an entry of the earlier images |
| DatasetJson.FixDatasetJson | src/utils/fix_dataset_json.py:17-86 | the manifest lists the pairing in sorted order, with `numTraining` equal to its length, the kept or default header, `.nii.gz` and `SimpleITKIO` |
| MovePseudo.Step | src/preprocess/move_pseudo.py:37-44 | exactly the two copies when both sources exist, otherwise exactly one report of the missing ones |
| MovePseudo.Plan | src/preprocess/move_pseudo.py:26-44 | every copy writes into the training image or label folder |
| MovePseudo.MovePseudo | src/preprocess/move_pseudo.py:26-44 | the loop's actions are the plan, and the files afterwards are the old ones plus the copies |
| MovePseudo.PlanAppend | src/preprocess/move_pseudo.py:26-44 | a missing case does not stop later cases: the plan of a list is the plans of its parts in order |
| MovePseudo.SourceImage | src/preprocess/move_pseudo.py:29 | `<c>_0000.nii.gz` in the test image folder; `MovePseudo.NamesInjective` states that cases do not share it |
| MovePseudo.SourceLabel | src/preprocess/move_pseudo.py:30 | `<c>.nii.gz` in the best prediction folder; `MovePseudo.NamesInjective` states that cases do not share it |
| MovePseudo.DestImage | src/preprocess/move_pseudo.py:33 | `pseudo_<c>_0000.nii.gz` in the training image folder; `MovePseudo.DestinationsPair` relates it to the label |
| MovePseudo.DestLabel | src/preprocess/move_pseudo.py:34 | `pseudo_<c>.nii.gz` in the training label folder; `MovePseudo.DestinationsPair` relates it to the image |
| MovePseudo.NamesInjective | src/preprocess/move_pseudo.py:29-34 | different cases have different source and destination names |
| MovePseudo.CopiedIffBothSources | src/preprocess/move_pseudo.py:37-39 | a case's image and mask are copied exactly when it is listed and both sources exist |
| MovePseudo.WrittenOnlyByOwnCopy | src/preprocess/move_pseudo.py:33-39 | a case's destination is written only by that case's own copy |
| MovePseudo.BothOrNeither | src/preprocess/move_pseudo.py:37-39 | afterwards a new case's image is in the training set exactly when its mask is |
| MovePseudo.DestinationsPair | src/preprocess/move_pseudo.py:33-34 | `pseudo_<c>_0000.nii.gz` expects the label `pseudo_<c>.nii.gz` under the manifest's renaming rule |
| PackSubmission.SubmissionName | src/postprocess/pack_submission.py:21-22 | the new name is the old name's text before its first dot, which the old name continues with a dot when it is shorter, followed by `_predict.nii.gz` |
| PackSubmission.SubmissionNameOfCase | src/postprocess/pack_submission.py:21-22 | `<c>.nii.gz` becomes `<c>_predict.nii.gz` |
| PackSubmission.SubmissionNameExample | src/postprocess/pack_submission.py:17 | `patient0051.nii.gz` becomes `patient0051_predict.nii.gz` |
| PackSubmission.SameNameIffSameStem | src/postprocess/pack_submission.py:21-25 | two files get one new name exactly when their text before the first dot agrees |
| PackSubmission.SubmissionNameIsBare | src/postprocess/pack_submission.py:21-22 | a name without `/` keeps none |
| PackSubmission.CopyRenamed | src/postprocess/pack_submission.py:13-25 | the fresh folder holds the renamed copies |
| PackSubmission.Packed | src/postprocess/pack_submission.py:18-25 | the folder after the copy loop; `PackSubmission.PackedContents` and `PackSubmission.LastCopyWins` state what it holds |
| PackSubmission.PackedContents | src/postprocess/pack_submission.py:18-25 | each folder file is the renamed copy of a listed `.nii.gz` file, and every such file has its new name in the folder |
| PackSubmission.LastCopyWins | src/postprocess/pack_submission.py:21-25 | when names collide, the last listed file is the one kept |
| PackSubmission.WriteArchive | src/postprocess/pack_submission.py:30-33 | one entry per file, stored under its bare name, and every folder file is archived |
| PackSubmission.Pack | src/postprocess/pack_submission.py:13-33 | every archive name is the new name of a listed `.nii.gz` file, and every such file is archived |

## Left out

- File I/O is not modelled: NIfTI, NPZ and JSON reading and writing, affine and header handling, `set_xyzt_units`, `shutil` copies, zip creation and `rmtree`. Directories and files are maps, sets and sequences, and reference images are only their shapes.
- Floating point is not modelled. Probabilities are reals, so rounding in the weighted sum, the boost and `np.mean` is absent. `get_fdata` floats are integers here, so `np.round` at clean_labels.py:72 is the identity.
- The internals of scikit-image's `label` and `remove_small_objects` are not modelled. They are a function parameter with the `Sound` assumption, and the neighbourhood is only the `connectivity` argument (3 in post-processing, the default 1 in label cleaning).
- Environment-variable lookup, prints, tqdm progress and the post-processing driver loop (post_process.py:47-61) are not modelled.
- Ensemble.LabelMap: the `.astype(np.uint8)` of the arg-max is not modelled. It only matters beyond 256 classes.
- Ensemble.EnsembleAll: arrays whose shapes differ between sources, which numpy would broadcast or reject, are excluded by its precondition. So are maps with fewer than four classes, where lines 69-70 raise.
- Ensemble.ProcessCase: `final_probs[2] *= …` changes the array in place. Here the array is a value the method reassigns.
- SelectPseudo.SelectCases: `scores.sort` is the library's in-place sort. It is modelled as a stable sort that returns the sorted list.
- SelectPseudo.ConfidenceScore: only load failures and the arg-max over zero classes lead to the `except` branch. No other exception is modelled.
- PostProcess.KeepLargestConnectedComponent: the `bincount` vector is taken to have exactly `num_features` entries after the background, as scikit-image guarantees.
- DatasetJson.PairingAtMostLabels: `numTraining` ≤ number of label files holds only when no two images expect the same label. `DatasetJson.TwoImagesOneLabel` shows a listing where it fails.
- PostProcess.Idempotent: holds under `Components.Stable` (a lone non-empty component stays one component when labelled again), which is an assumption about the labeller and is not proved.

=== FILE: clean_labels.dfy ===
/**
 * Small-object removal on the myocardium label
 * (src/preprocess/clean_labels.py, the body of the per-file loop). Every
 * label-1 voxel is cleared, the label-1 components of at least 100 voxels
 * are written back, and the volume is cast to uint8; all other values are
 * kept.
 */
module CleanLabels {
  import opened Strings
  import opened Reduce
  import opened Components

  const MYOCARDIUM: int := 1

  /** `min_size=100` at line 51. */
  const MIN_SIZE: nat := 100

  /** `remove_small_objects` labels with its default connectivity, 1. */
  const CONNECTIVITY: nat := 1

  /** `.astype(np.uint8)` of an integer value: wrap-around modulo 256. */
  function ToUint8(x: int): (b: int)
    ensures 0 <= b < 256
    ensures 0 <= x < 256 ==> b == x
  {
    x % 256
  }

  predicate IsByteVolume(data: seq<int>) {
    forall v :: 0 <= v < |data| ==> 0 <= data[v] < 256
  }

  /**
   * `remove_small_objects(mask, min_size)`: a mask voxel survives when its
   * component has at least `minSize` voxels.
   */
  function RemoveSmallObjects(mask: seq<bool>, labeller: Labeller, minSize: nat): (kept: seq<bool>)
    requires Sound(labeller)
    ensures |kept| == |mask|
    ensures forall v :: 0 <= v < |mask| && kept[v] ==> mask[v]
  {
    var lab := labeller(mask, CONNECTIVITY);
    assert Partitions(mask, lab);
    seq(|mask|, v requires 0 <= v < |mask| => mask[v] && Size(lab, lab.ids[v]) >= minSize)
  }

  /** Lines 55 and 58: label-1 voxels cleared, then the kept mask set to 1. */
  function Rewrite(data: seq<int>, kept: seq<bool>): (r: seq<int>)
    requires |kept| == |data|
    ensures |r| == |data|
    ensures forall v :: 0 <= v < |r| && kept[v] ==> r[v] == MYOCARDIUM
    ensures forall v :: 0 <= v < |r| && !kept[v] ==> r[v] == if data[v] == MYOCARDIUM then 0 else data[v]
  {
    seq(|data|, v requires 0 <= v < |data| =>
      if kept[v] then MYOCARDIUM else if data[v] == MYOCARDIUM then 0 else data[v])
  }

  /** Line 72: `.astype(np.uint8)` voxel by voxel. */
  function Cast(data: seq<int>): (r: seq<int>)
    ensures |r| == |data|
    ensures forall v :: 0 <= v < |r| ==> r[v] == ToUint8(data[v])
  {
    seq(|data|, v requires 0 <= v < |data| => ToUint8(data[v]))
  }

  /**
   * The file's data after lines 39-58 and 72. Voxels of other labels keep
   * their value up to the cast, a label-1 voxel ends as 1 or background, and
   * a uint8 volume gains no label-1 voxel.
   */
  function Clean(data: seq<int>, labeller: Labeller): (r: seq<int>)
    requires Sound(labeller)
    ensures |r| == |data|
    ensures forall v :: 0 <= v < |data| && data[v] != MYOCARDIUM ==> r[v] == ToUint8(data[v])
    ensures forall v :: 0 <= v < |data| && data[v] == MYOCARDIUM ==> r[v] == 0 || r[v] == MYOCARDIUM
    ensures IsByteVolume(data) ==> forall v :: 0 <= v < |data| && r[v] == MYOCARDIUM ==> data[v] == MYOCARDIUM
  {
    var myo := LabelMask(data, MYOCARDIUM);
    if Count(myo, true) > 0 then Cast(Rewrite(data, RemoveSmallObjects(myo, labeller, MIN_SIZE)))
    else Cast(data)
  }

  /** `final_data[final_data == 1] = 0; final_data[cleaned_mask] = 1`, in place. */
  method RewriteMyocardium(a: array<int>, kept: seq<bool>)
    requires |kept| == a.Length
    modifies a
    ensures a[..] == Rewrite(old(a[..]), kept)
  {
    ghost var data := a[..];
    forall v | 0 <= v < a.Length && a[v] == MYOCARDIUM {
      a[v] := 0;
    }
    forall v | 0 <= v < a.Length && kept[v] {
      a[v] := MYOCARDIUM;
    }
    assert forall v :: 0 <= v < a.Length ==> a[v] == Rewrite(data, kept)[v];
  }

  /** `final_data.astype(np.uint8)`, in place. */
  method CastToUint8(a: array<int>)
    modifies a
    ensures a[..] == Cast(old(a[..]))
  {
    ghost var data := a[..];
    forall v | 0 <= v < a.Length {
      a[v] := ToUint8(a[v]);
    }
    assert forall v :: 0 <= v < a.Length ==> a[v] == Cast(data)[v];
  }

  /**
   * Lines 39-72 for one file: `final_data` is a copy of the data, rewritten
   * in place by two masked assignments and the uint8 cast. `removed` is the
   * logged `orig_vol - np.sum(cleaned_mask)`, 0 when nothing was logged.
   */
  method CleanFile(data: seq<int>, labeller: Labeller) returns (r: seq<int>, removed: int)
    requires Sound(labeller)
    ensures r == Clean(data, labeller)
    ensures removed >= 0
    ensures var myo := LabelMask(data, MYOCARDIUM);
      removed == if Count(myo, true) > 0 then Count(myo, true) - Count(RemoveSmallObjects(myo, labeller, MIN_SIZE), true) else 0
  {
    var finalData := new int[|data|](v requires 0 <= v < |data| => data[v]);
    assert finalData[..] == data;
    var myoMask := LabelMask(data, MYOCARDIUM);
    var origVol := Count(myoMask, true);
    removed := 0;
    if origVol > 0 {
      var cleanedMask := RemoveSmallObjects(myoMask, labeller, MIN_SIZE);
      RewriteMyocardium(finalData, cleanedMask);
      CountMonotone(myoMask, true, cleanedMask, true);
      removed := origVol - Count(cleanedMask, true);
    }
    CastToUint8(finalData);
    r := finalData[..];
  }

  /**
   * Label-1 components below 100 voxels vanish, and those of at least 100
   * voxels are kept whole.
   */
  lemma ComponentsBySize(data: seq<int>, labeller: Labeller, c: nat)
    requires Sound(labeller)
    requires 1 <= c
    ensures var lab := labeller(LabelMask(data, MYOCARDIUM), CONNECTIVITY);
      forall v :: 0 <= v < |data| && v < |lab.ids| && lab.ids[v] == c ==>
        Clean(data, labeller)[v] == if Size(lab, c) >= MIN_SIZE then MYOCARDIUM else 0
  {
    var myo := LabelMask(data, MYOCARDIUM);
    var lab := labeller(myo, CONNECTIVITY);
    assert Partitions(myo, lab);
    forall v | 0 <= v < |data| && v < |lab.ids| && lab.ids[v] == c
      ensures myo[v] && Count(myo, true) > 0
    {
      assert myo[v];
    }
  }

  /** What the script leaves in file `f`: cleaned if it is a `.nii.gz` file, untouched otherwise. */
  function Written(f: string, store: map<string, seq<int>>, labeller: Labeller): seq<int>
    requires Sound(labeller) && f in store
  {
    if EndsWith(f, ".nii.gz") then Clean(store[f], labeller) else store[f]
  }

  /**
   * Lines 29-81: every `.nii.gz` file of the label directory is cleaned and
   * written back under its own name. `store` is the directory's contents and
   * `listing` is `os.listdir`, in whatever order it returns the names.
   */
  method CleanDirectory(listing: seq<string>, store: map<string, seq<int>>, labeller: Labeller)
    returns (out: map<string, seq<int>>)
    requires Sound(labeller)
    requires forall f :: f in listing <==> f in store
    requires forall i, j :: 0 <= i < j < |listing| ==> listing[i] != listing[j]
    ensures out.Keys == store.Keys
    ensures forall f :: f in store ==> out[f] == Written(f, store, labeller)
  {
    out := store;
    for i := 0 to |listing|
      invariant out.Keys == store.Keys
      invariant forall j :: 0 <= j < i ==> out[listing[j]] == Written(listing[j], store, labeller)
      invariant forall j :: i <= j < |listing| ==> out[listing[j]] == store[listing[j]]
    {
      var filename := listing[i];
      ghost var before := out;
      if EndsWith(filename, ".nii.gz") {
        var cleaned, removed := CleanFile(store[filename], labeller);
        out := out[filename := cleaned];
      }
      assert out[filename] == Written(filename, store, labeller);
      forall j | 0 <= j < |listing| && j != i
        ensures out[listing[j]] == before[listing[j]]
      {
        assert listing[j] != filename;
      }
    }
    forall f | f in store
      ensures out[f] == Written(f, store, labeller)
    {
      var j :| 0 <= j < |listing| && listing[j] == f;
    }
  }
}

=== FILE: components.dfy ===
/**
 * Connected components, taken abstractly. The scripts call scikit-image
 * (`skimage.measure.label` and `remove_small_objects`), whose neighbourhood
 * depends on a `connectivity` argument; here the labeller is a function
 * parameter of that argument, and what the scripts rely on about it is
 * stated as predicates (`Sound`, `Stable`) that callers assume.
 * Volumes are flattened to one sequence of voxels: the component structure
 * is the only spatial information these operations use.
 */
module Components {
  import opened Reduce

  /** `skimage.measure.label(mask, return_num=True)`: `ids[v]` is 0 off the mask, else a component number. */
  datatype Labelling = Labelling(ids: seq<nat>, count: nat)

  /** A labeller of boolean masks under a given connectivity. */
  type Labeller = (seq<bool>, nat) -> Labelling

  /** numpy's `volume == l`. */
  function LabelMask(volume: seq<int>, l: int): (m: seq<bool>)
    ensures |m| == |volume|
    ensures forall v :: 0 <= v < |m| ==> (m[v] <==> volume[v] == l)
  {
    seq(|volume|, v requires 0 <= v < |volume| => volume[v] == l)
  }

  /** `l` numbers exactly the voxels of `mask`, with numbers 1 to `l.count`. */
  ghost predicate Partitions(mask: seq<bool>, l: Labelling) {
    && |l.ids| == |mask|
    && (forall v :: 0 <= v < |mask| ==> (l.ids[v] == 0 <==> !mask[v]))
    && (forall v :: 0 <= v < |mask| ==> l.ids[v] <= l.count)
  }

  /** The guarantee scikit-image gives: every labelling partitions its mask. */
  ghost predicate Sound(labeller: Labeller) {
    forall m, k :: Partitions(m, labeller(m, k))
  }

  /** Number of voxels carrying component number `c`. */
  function Size(l: Labelling, c: nat): nat {
    Count(l.ids, c)
  }

  /** `np.bincount(ids)[1:]`: the sizes of components 1 to `count`. */
  function Sizes(l: Labelling): (r: seq<real>)
    ensures |r| == l.count
    ensures forall i :: 0 <= i < l.count ==> r[i] == Size(l, i + 1) as real
  {
    seq(l.count, i requires 0 <= i < l.count => Size(l, i + 1) as real)
  }

  /** `np.argmax(component_sizes) + 1`: a largest component, the lowest-numbered on ties. */
  function Largest(l: Labelling): (c: nat)
    requires l.count > 0
    ensures 1 <= c <= l.count
    ensures forall d :: 1 <= d <= l.count ==> Size(l, d) <= Size(l, c)
    ensures forall d :: 1 <= d < c ==> Size(l, d) < Size(l, c)
  {
    var s := Sizes(l);
    var k := ArgMax(s);
    assert forall d :: 1 <= d <= l.count ==> s[d - 1] == Size(l, d) as real;
    k + 1
  }

  /** `labeled_mask == c`. */
  function ComponentMask(l: Labelling, c: nat): (m: seq<bool>)
    ensures |m| == |l.ids|
    ensures forall v :: 0 <= v < |m| ==> (m[v] <==> l.ids[v] == c)
  {
    seq(|l.ids|, v requires 0 <= v < |l.ids| => l.ids[v] == c)
  }

  /**
   * A single non-empty component, labelled again on its own with the same
   * connectivity, is one component.
   */
  ghost predicate Stable(labeller: Labeller, k: nat) {
    forall m: seq<bool>, c: nat :: 1 <= c <= labeller(m, k).count && Size(labeller(m, k), c) > 0 ==>
      labeller(ComponentMask(labeller(m, k), c), k).count == 1
  }
}

=== FILE: ensemble.dfy ===
/**
 * Weighted probability fusion and label-mask reconstruction
 * (src/inference/ensemble.py). For each `.npz` case of the main model group
 * the script fuses three probability arrays with fixed weights, boosts the
 * aortic-valve and calcification channels, takes the arg-max over the class
 * axis, looks up a reference image to fix the orientation, and writes the
 * mask, or reports the case when no reference image exists.
 *
 * A probability array has numpy shape (C, Z, Y, X); here it is stored voxel
 * by voxel (each voxel holds its C class values), which is the axis the
 * fusion, the boost and the arg-max act on.
 */
module Ensemble {
  import opened Wrappers
  import opened Strings
  import opened Reduce
  import opened Volumes

  const W_MAIN: real := 3.2
  const W_NEW1: real := 1.0
  const W_2D: real := 0.0

  /** Channel 0 is background, 1 myocardium, 2 aortic valve, 3 calcification. */
  const VALVE: nat := 2
  const CALC: nat := 3
  const BOOST_VALVE: real := 1.15
  const BOOST_CALC: real := 1.15

  datatype Probs = Probs(classes: nat, grid: Vol<seq<real>>) {
    ghost predicate Valid() {
      && grid.Valid()
      && forall i, j, k :: grid.shape.Holds(i, j, k) ==> |grid.cells[i][j][k]| == classes
    }
  }

  /** Same number of classes and same spatial shape. */
  ghost predicate Conformant(a: Probs, b: Probs) {
    a.Valid() && b.Valid() && a.classes == b.classes && a.grid.shape == b.grid.shape
  }

  function Zeros(n: nat): (z: seq<real>)
    ensures |z| == n && forall c :: 0 <= c < n ==> z[c] == 0.0
  {
    seq(n, _ => 0.0)
  }

  /** `np.zeros_like(data_main)`. */
  function ZerosLike(p: Probs): (z: Probs)
    requires p.Valid()
    ensures Conformant(z, p)
    ensures forall i, j, k :: p.grid.shape.Holds(i, j, k) ==> z.grid.cells[i][j][k] == Zeros(p.classes)
  {
    Probs(p.classes, Map(p.grid, (_: seq<real>) => Zeros(p.classes)))
  }

  // ---------------------------------------------------------------------
  // One voxel

  /** Line 65 at one voxel: `main * w_main + new1 * w_new1 + d2 * w_2d`. */
  function FuseVoxel(m: seq<real>, n: seq<real>, d: seq<real>): (r: seq<real>)
    requires |m| == |n| == |d|
    ensures |r| == |m|
  {
    seq(|m|, c requires 0 <= c < |m| => W_MAIN * m[c] + W_NEW1 * n[c] + W_2D * d[c])
  }

  /** `final_probs[c] *= factor` at one voxel. */
  function BoostVoxel(v: seq<real>, c: nat, factor: real): (r: seq<real>)
    requires c < |v|
    ensures |r| == |v|
    ensures r[c] == v[c] * factor
    ensures forall j :: 0 <= j < |v| && j != c ==> r[j] == v[j]
  {
    v[c := v[c] * factor]
  }

  /** Lines 69-70 at one voxel: both boosts, valve first. */
  function BoostBoth(v: seq<real>): (r: seq<real>)
    requires |v| > CALC
    ensures |r| == |v|
    ensures r[VALVE] == v[VALVE] * BOOST_VALVE && r[CALC] == v[CALC] * BOOST_CALC
    ensures forall j :: 0 <= j < |v| && j != VALVE && j != CALC ==> r[j] == v[j]
  {
    BoostVoxel(BoostVoxel(v, VALVE, BOOST_VALVE), CALC, BOOST_CALC)
  }

  /** One source that contributes to the fusion: its weight and its class values. */
  datatype Term = Term(weight: real, probs: seq<real>)

  /** Independent reference: Σ weight · probability over the given sources, for class `c`. */
  function WeightedSum(terms: seq<Term>, c: nat): real
    requires forall t :: t in terms ==> c < |t.probs|
  {
    if terms == [] then 0.0
    else terms[0].weight * terms[0].probs[c] + WeightedSum(terms[1..], c)
  }

  /** The sources actually present for a case: the main group always, the others if found. */
  function PresentTerms(m: seq<real>, n: Option<seq<real>>, d: Option<seq<real>>): seq<Term> {
    [Term(W_MAIN, m)]
      + (if n.Some? then [Term(W_NEW1, n.value)] else [])
      + (if d.Some? then [Term(W_2D, d.value)] else [])
  }

  /**
   * Replacing a missing source by zeros (lines 50-62) gives the weighted sum
   * of the present sources only.
   */
  lemma FuseEqualsPresentSources(m: seq<real>, n: Option<seq<real>>, d: Option<seq<real>>, c: nat)
    requires c < |m|
    requires n.Some? ==> |n.value| == |m|
    requires d.Some? ==> |d.value| == |m|
    ensures FuseVoxel(m, n.GetOr(Zeros(|m|)), d.GetOr(Zeros(|m|)))[c] == WeightedSum(PresentTerms(m, n, d), c)
  {
    var terms := PresentTerms(m, n, d);
    assert terms[0] == Term(W_MAIN, m);
    var rest := terms[1..];
    if n.Some? {
      assert rest[0] == Term(W_NEW1, n.value);
      if d.Some? {
        assert rest[1..] == [Term(W_2D, d.value)];
        assert rest[1..][1..] == [];
        assert WeightedSum(rest[1..], c) == W_2D * d.value[c];
      } else {
        assert rest[1..] == [];
      }
    } else if d.Some? {
      assert rest == [Term(W_2D, d.value)];
      assert rest[1..] == [];
      assert WeightedSum(rest, c) == W_2D * d.value[c];
    } else {
      assert rest == [];
    }
  }

  /** `w_2d = 0`: the 2D model's probabilities never change the fused values. */
  lemma TwoDModelIgnoredAtVoxel(m: seq<real>, n: seq<real>, d: seq<real>, d': seq<real>)
    requires |m| == |n| == |d| == |d'|
    ensures FuseVoxel(m, n, d) == FuseVoxel(m, n, d')
  {
  }

  /**
   * With a non-negative value and a boost of at least 1, a class that wins
   * a voxel before boosting still wins it after.
   */
  lemma BoostKeepsWinner(v: seq<real>, c: nat, factor: real)
    requires c < |v| && |v| > 0
    requires ArgMax(v) == c && v[c] >= 0.0 && factor >= 1.0
    ensures ArgMax(BoostVoxel(v, c, factor)) == c
  {
    BoostRaises(v, c, factor);
    RaiseKeepsArgMax(v, BoostVoxel(v, c, factor), c);
  }

  /**
   * Boosting valve and calcification by the same factor never moves the
   * winner when one of them already wins with a non-negative value: in
   * particular an exact tie between channels 2 and 3 still goes to 2.
   */
  lemma BoostBothKeepsWinner(v: seq<real>)
    requires |v| > CALC
    requires ArgMax(v) == VALVE || ArgMax(v) == CALC
    requires v[ArgMax(v)] >= 0.0
    ensures ArgMax(BoostBoth(v)) == ArgMax(v)
  {
    var w := ArgMax(v);
    var r := BoostBoth(v);
    assert r[w] == v[w] * BOOST_VALVE;
    ScaleUp(v[w], BOOST_VALVE);
    forall j | 0 <= j < |r|
      ensures r[j] <= r[w]
    {
      if j == VALVE || j == CALC {
        ScaleMonotone(v[j], v[w], BOOST_VALVE);
      } else {
        assert r[j] == v[j] <= v[w];
      }
    }
    forall j | 0 <= j < w
      ensures r[j] < r[w]
    {
      if j == VALVE {
        ScaleStrict(v[j], v[w], BOOST_VALVE);
      } else {
        assert r[j] == v[j] < v[w];
      }
    }
    ArgMaxUnique(r, w);
  }

  /** Boosting by at least 1 raises a non-negative channel and leaves the others alone. */
  lemma BoostRaises(v: seq<real>, c: nat, factor: real)
    requires c < |v| && v[c] >= 0.0 && factor >= 1.0
    ensures v[c] <= BoostVoxel(v, c, factor)[c]
  {
    ScaleUp(v[c], factor);
  }

  /** A non-negative value does not shrink under a factor of at least 1. */
  lemma ScaleUp(x: real, factor: real)
    requires x >= 0.0 && factor >= 1.0
    ensures x <= x * factor
  {
    assert x * factor == x + x * (factor - 1.0);
  }

  lemma ScaleMonotone(x: real, y: real, factor: real)
    requires x <= y && factor > 0.0
    ensures x * factor <= y * factor
  {
    assert y * factor - x * factor == (y - x) * factor;
  }

  lemma ScaleStrict(x: real, y: real, factor: real)
    requires x < y && factor > 0.0
    ensures x * factor < y * factor
  {
    assert y * factor - x * factor == (y - x) * factor;
  }

  // ---------------------------------------------------------------------
  // Whole arrays

  /** Line 65: the weighted sum, voxel by voxel. */
  function Fuse(main: Probs, new1: Probs, twoD: Probs): (r: Probs)
    requires Conformant(main, new1) && Conformant(main, twoD)
    ensures Conformant(r, main)
    ensures forall i, j, k :: main.grid.shape.Holds(i, j, k) ==>
      r.grid.cells[i][j][k] == FuseVoxel(main.grid.cells[i][j][k], new1.grid.cells[i][j][k], twoD.grid.cells[i][j][k])
  {
    var s := main.grid.shape;
    var cells := seq(s.d0, i requires 0 <= i < s.d0 =>
                   seq(s.d1, j requires 0 <= j < s.d1 =>
                     seq(s.d2, k requires 0 <= k < s.d2 =>
                       FuseVoxel(main.grid.cells[i][j][k], new1.grid.cells[i][j][k], twoD.grid.cells[i][j][k]))));
    Probs(main.classes, Vol(s, cells))
  }

  /** `final_probs[c] *= factor` on the whole array. */
  function Boost(p: Probs, c: nat, factor: real): (r: Probs)
    requires p.Valid() && c < p.classes
    ensures Conformant(r, p)
    ensures forall i, j, k :: p.grid.shape.Holds(i, j, k) ==>
      r.grid.cells[i][j][k] == BoostVoxel(p.grid.cells[i][j][k], c, factor)
  {
    Probs(p.classes, Map(p.grid, (v: seq<real>) => if c < |v| then BoostVoxel(v, c, factor) else v))
  }

  /** Line 73: `np.argmax(final_probs, axis=0)`. */
  function LabelMap(p: Probs): (r: Vol<int>)
    requires p.Valid() && p.classes > 0
    ensures r.Valid() && r.shape == p.grid.shape
    ensures forall i, j, k :: p.grid.shape.Holds(i, j, k) ==>
      0 <= r.cells[i][j][k] < p.classes && r.cells[i][j][k] == ArgMax(p.grid.cells[i][j][k])
  {
    Map(p.grid, (v: seq<real>) => if |v| > 0 then ArgMax(v) as int else 0)
  }

  /** Lines 65-73: fusion, both boosts, arg-max. */
  function Predict(main: Probs, new1: Probs, twoD: Probs): (r: Vol<int>)
    requires Conformant(main, new1) && Conformant(main, twoD) && main.classes > CALC
    ensures r.Valid() && r.shape == main.grid.shape
  {
    var fused := Fuse(main, new1, twoD);
    LabelMap(Boost(Boost(fused, VALVE, BOOST_VALVE), CALC, BOOST_CALC))
  }

  /**
   * Every predicted voxel is the lowest index of a maximal boosted fused
   * value.
   */
  lemma PredictAt(main: Probs, new1: Probs, twoD: Probs, i: nat, j: nat, k: nat)
    requires Conformant(main, new1) && Conformant(main, twoD) && main.classes > CALC
    requires main.grid.shape.Holds(i, j, k)
    ensures var v := BoostBoth(FuseVoxel(main.grid.cells[i][j][k], new1.grid.cells[i][j][k], twoD.grid.cells[i][j][k]));
      && Predict(main, new1, twoD).cells[i][j][k] == ArgMax(v)
      && (forall c :: 0 <= c < |v| ==> v[c] <= v[Predict(main, new1, twoD).cells[i][j][k]])
      && (forall c :: 0 <= c < Predict(main, new1, twoD).cells[i][j][k] ==> v[c] < v[Predict(main, new1, twoD).cells[i][j][k]])
  {
    var fused := Fuse(main, new1, twoD);
    var b1 := Boost(fused, VALVE, BOOST_VALVE);
    var b2 := Boost(b1, CALC, BOOST_CALC);
    assert b2.grid.cells[i][j][k] == BoostBoth(fused.grid.cells[i][j][k]);
  }

  /** The 2D model never affects the written label (its weight is 0). */
  lemma TwoDModelIgnored(main: Probs, new1: Probs, twoD: Probs, twoD': Probs)
    requires Conformant(main, new1) && Conformant(main, twoD) && Conformant(main, twoD') && main.classes > CALC
    ensures Predict(main, new1, twoD) == Predict(main, new1, twoD')
  {
    var a := Predict(main, new1, twoD);
    var b := Predict(main, new1, twoD');
    forall i, j, k | main.grid.shape.Holds(i, j, k)
      ensures a.cells[i][j][k] == b.cells[i][j][k]
    {
      PredictAt(main, new1, twoD, i, j, k);
      PredictAt(main, new1, twoD', i, j, k);
      TwoDModelIgnoredAtVoxel(main.grid.cells[i][j][k], new1.grid.cells[i][j][k], twoD.grid.cells[i][j][k], twoD'.grid.cells[i][j][k]);
    }
    Extensionality(a, b);
  }

  // ---------------------------------------------------------------------
  // Reference image and orientation

  /** Line 76: the output name. */
  function NiftiName(npz: string): string {
    ReplaceAll(npz, ".npz", ".nii.gz")
  }

  /** Line 77: the reference image name with the channel suffix. */
  function RawName(npz: string): string {
    ReplaceAll(npz, ".npz", "_0000.nii.gz")
  }

  /** For a case file `<c>.npz`, the two candidate names are `<c>_0000.nii.gz` and `<c>.nii.gz`. */
  lemma CandidateNames(c: string)
    requires '.' !in c
    ensures RawName(c + ".npz") == c + "_0000.nii.gz"
    ensures NiftiName(c + ".npz") == c + ".nii.gz"
  {
    ReplaceDottedSuffix(c, ".npz", "_0000.nii.gz", 0);
    ReplaceDottedSuffix(c, ".npz", ".nii.gz", 0);
  }

  /**
   * Lines 80-83: the reference image is the channel-suffixed name if it
   * exists, else the plain name if that exists, else there is none.
   */
  function ReferencePath(npz: string, raw: set<string>): (r: Option<string>)
    ensures r.Some? <==> RawName(npz) in raw || NiftiName(npz) in raw
    ensures r.Some? ==> r.value in raw && (r.value == RawName(npz) || r.value == NiftiName(npz))
    ensures RawName(npz) in raw ==> r == Some(RawName(npz))
  {
    var path := if RawName(npz) in raw then RawName(npz) else NiftiName(npz);
    if path in raw then Some(path) else None
  }

  /**
   * Lines 86-87: one `transpose(2, 1, 0)` when the shape differs, and no
   * second check. The written shape is the computed one or its reverse; a
   * reference of reversed shape is then matched, and a reference that fits
   * neither orientation is still not matched when the mask is written.
   */
  function FitToReference(mask: Vol<int>, ref: Shape): (r: Vol<int>)
    requires mask.Valid()
    ensures r.Valid()
    ensures mask.shape == ref ==> r == mask
    ensures mask.shape != ref ==> r == Transpose(mask)
    ensures r.shape == mask.shape || r.shape == mask.shape.Reversed()
    ensures ref == mask.shape.Reversed() ==> r.shape == ref
    ensures mask.shape != ref && mask.shape.Reversed() != ref ==> r.shape != ref
  {
    if mask.shape != ref then Transpose(mask) else mask
  }

  // ---------------------------------------------------------------------
  // The per-file loop

  datatype Outcome =
    | Saved(name: string, mask: Vol<int>)   // written to the output folder
    | HeaderMissing(file: string)           // reported, nothing written

  /** Every `.npz` file of the main folder loads, with at least 4 classes; the other sources conform to it. */
  ghost predicate Loadable(f: string, mainDir: map<string, Probs>, new1Dir: map<string, Probs>, dir2d: map<string, Probs>) {
    && f in mainDir && mainDir[f].Valid() && mainDir[f].classes > CALC
    && (f in new1Dir ==> Conformant(mainDir[f], new1Dir[f]))
    && (f in dir2d ==> Conformant(mainDir[f], dir2d[f]))
  }

  /** Lines 49-62: a source's array for the case, or zeros like the main array when its file is missing. */
  function Source(f: string, mainDir: map<string, Probs>, dir: map<string, Probs>): (p: Probs)
    requires f in mainDir && mainDir[f].Valid()
    requires f in dir ==> Conformant(mainDir[f], dir[f])
    ensures Conformant(mainDir[f], p)
    ensures p == if f in dir then dir[f] else ZerosLike(mainDir[f])
  {
    if f in dir then dir[f] else ZerosLike(mainDir[f])
  }

  /** Lines 46-73: the mask computed for a case before any reorientation. */
  function CaseMask(f: string, mainDir: map<string, Probs>, new1Dir: map<string, Probs>, dir2d: map<string, Probs>): (mask: Vol<int>)
    requires Loadable(f, mainDir, new1Dir, dir2d)
    ensures mask.Valid() && mask.shape == mainDir[f].grid.shape
  {
    Predict(mainDir[f], Source(f, mainDir, new1Dir), Source(f, mainDir, dir2d))
  }

  /**
   * What the script does with one case file: the predicted mask is written
   * under `<case>.nii.gz`, fitted to the reference image that was found,
   * unless neither reference name exists, in which case the file is
   * reported.
   */
  function CaseOutcome(f: string, mainDir: map<string, Probs>, new1Dir: map<string, Probs>, dir2d: map<string, Probs>,
                       raw: map<string, Shape>): (r: Outcome)
    requires Loadable(f, mainDir, new1Dir, dir2d)
    ensures r.HeaderMissing? <==> RawName(f) !in raw && NiftiName(f) !in raw
    ensures r.HeaderMissing? ==> r.file == f
    ensures r.Saved? ==> r.name == NiftiName(f) && r.mask.Valid()
    ensures r.Saved? ==> r.mask.shape == mainDir[f].grid.shape || r.mask.shape == mainDir[f].grid.shape.Reversed()
    ensures r.Saved? ==> ReferencePath(f, raw.Keys).Some?
    ensures r.Saved? ==>
      r.mask == FitToReference(CaseMask(f, mainDir, new1Dir, dir2d), raw[ReferencePath(f, raw.Keys).value])
  {
    var mask := CaseMask(f, mainDir, new1Dir, dir2d);
    match ReferencePath(f, raw.Keys)
    case Some(path) => Saved(NiftiName(f), FitToReference(mask, raw[path]))
    case None => HeaderMissing(f)
  }

  /**
   * A voxel of a written mask is the computed mask's voxel at the same
   * index, or at the reversed index when the mask was transposed.
   */
  lemma SavedCell(f: string, mainDir: map<string, Probs>, new1Dir: map<string, Probs>, dir2d: map<string, Probs>,
                  raw: map<string, Shape>, i: nat, j: nat, k: nat)
    requires Loadable(f, mainDir, new1Dir, dir2d)
    requires CaseOutcome(f, mainDir, new1Dir, dir2d, raw).Saved?
    requires CaseOutcome(f, mainDir, new1Dir, dir2d, raw).mask.shape.Holds(i, j, k)
    ensures var kept := mainDir[f].grid.shape == raw[ReferencePath(f, raw.Keys).value];
      var x, z := if kept then i else k, if kept then k else i;
      && mainDir[f].grid.shape.Holds(x, j, z)
      && CaseOutcome(f, mainDir, new1Dir, dir2d, raw).mask.cells[i][j][k] == CaseMask(f, mainDir, new1Dir, dir2d).cells[x][j][z]
  {
    var saved := CaseOutcome(f, mainDir, new1Dir, dir2d, raw).mask;
    var mask := CaseMask(f, mainDir, new1Dir, dir2d);
    var ref := raw[ReferencePath(f, raw.Keys).value];
    if mask.shape == ref {
      assert saved == mask;
    } else {
      assert saved == Transpose(mask);
    }
  }

  /**
   * Every voxel of a written mask is the lowest index of a maximal boosted
   * fused value at the corresponding voxel of the case, read through the
   * transposition when the reference has another shape.
   */
  lemma SavedVoxel(f: string, mainDir: map<string, Probs>, new1Dir: map<string, Probs>, dir2d: map<string, Probs>,
                   raw: map<string, Shape>, i: nat, j: nat, k: nat)
    requires Loadable(f, mainDir, new1Dir, dir2d)
    requires CaseOutcome(f, mainDir, new1Dir, dir2d, raw).Saved?
    requires CaseOutcome(f, mainDir, new1Dir, dir2d, raw).mask.shape.Holds(i, j, k)
    ensures var main := mainDir[f];
      var kept := main.grid.shape == raw[ReferencePath(f, raw.Keys).value];
      var x, z := if kept then i else k, if kept then k else i;
      && main.grid.shape.Holds(x, j, z)
      && CaseOutcome(f, mainDir, new1Dir, dir2d, raw).mask.cells[i][j][k] ==
         ArgMax(BoostBoth(FuseVoxel(main.grid.cells[x][j][z],
                                    Source(f, mainDir, new1Dir).grid.cells[x][j][z],
                                    Source(f, mainDir, dir2d).grid.cells[x][j][z])))
  {
    SavedCell(f, mainDir, new1Dir, dir2d, raw, i, j, k);
    var kept := mainDir[f].grid.shape == raw[ReferencePath(f, raw.Keys).value];
    var x, z := if kept then i else k, if kept then k else i;
    PredictAt(mainDir[f], Source(f, mainDir, new1Dir), Source(f, mainDir, dir2d), x, j, z);
  }

  /** Lines 46-94: one pass of the loop body. */
  method ProcessCase(filename: string, mainDir: map<string, Probs>, new1Dir: map<string, Probs>,
                     dir2d: map<string, Probs>, raw: map<string, Shape>)
    returns (outcome: Outcome)
    requires Loadable(filename, mainDir, new1Dir, dir2d)
    ensures outcome == CaseOutcome(filename, mainDir, new1Dir, dir2d, raw)
  {
    var dataMain := mainDir[filename];
    var data1 := if filename in new1Dir then new1Dir[filename] else ZerosLike(dataMain);
    var data2d := if filename in dir2d then dir2d[filename] else ZerosLike(dataMain);

    var finalProbs := Fuse(dataMain, data1, data2d);
    finalProbs := Boost(finalProbs, VALVE, BOOST_VALVE);
    finalProbs := Boost(finalProbs, CALC, BOOST_CALC);
    var segMask := LabelMap(finalProbs);
    assert segMask == CaseMask(filename, mainDir, new1Dir, dir2d);

    var niiFilename := NiftiName(filename);
    var rawPath := RawName(filename);
    if rawPath !in raw {
      rawPath := niiFilename;
    }
    if rawPath in raw {
      if segMask.shape != raw[rawPath] {
        segMask := Transpose(segMask);
      }
      outcome := Saved(niiFilename, segMask);
    } else {
      outcome := HeaderMissing(filename);
    }
  }

  /**
   * Lines 41-94. `listing` is the main folder's directory listing, the maps
   * are the contents of the three probability folders, and `raw` gives the
   * shape of each reference image present. One outcome per `.npz` file, in
   * listing order.
   */
  method EnsembleAll(listing: seq<string>, mainDir: map<string, Probs>, new1Dir: map<string, Probs>,
                     dir2d: map<string, Probs>, raw: map<string, Shape>)
    returns (outcomes: seq<Outcome>)
    requires forall f :: f in listing && EndsWith(f, ".npz") ==> Loadable(f, mainDir, new1Dir, dir2d)
    ensures var files := WithSuffix(listing, ".npz");
      && |outcomes| == |files|
      && forall i :: 0 <= i < |files| ==> outcomes[i] == CaseOutcome(files[i], mainDir, new1Dir, dir2d, raw)
  {
    var files := WithSuffix(listing, ".npz");
    outcomes := [];
    for i := 0 to |files|
      invariant |outcomes| == i
      invariant forall j :: 0 <= j < i ==> outcomes[j] == CaseOutcome(files[j], mainDir, new1Dir, dir2d, raw)
    {
      assert files[i] in files;
      var outcome := ProcessCase(files[i], mainDir, new1Dir, dir2d, raw);
      ghost var before := outcomes;
      outcomes := outcomes + [outcome];
      forall j | 0 <= j < i + 1
        ensures outcomes[j] == CaseOutcome(files[j], mainDir, new1Dir, dir2d, raw)
      {
        if j < i {
          assert outcomes[j] == before[j];
        }
      }
    }
  }
}

=== FILE: fix_dataset_json.dfy ===
/**
 * Rebuilding the nnU-Net `dataset.json` manifest
 * (src/utils/fix_dataset_json.py): the image and label directories are
 * listed, every image whose label file exists becomes a training entry, and
 * `numTraining` is the number of entries.
 */
module DatasetJson {
  import opened Wrappers
  import opened Strings
  import opened Sorting

  const NII_GZ: string := ".nii.gz"
  const IMAGE_SUFFIX: string := "_0000.nii.gz"
  const IMAGES_PREFIX: string := "./imagesTr/"
  const LABELS_PREFIX: string := "./labelsTr/"

  /** `sorted([f for f in os.listdir(d) if f.endswith(".nii.gz")])` (lines 17-18). */
  function NiftiFiles(listing: seq<string>): (r: seq<string>)
    ensures multiset(r) == multiset(WithSuffix(listing, NII_GZ))
    ensures forall f :: multiset(r)[f] == if EndsWith(f, NII_GZ) then multiset(listing)[f] else 0
    ensures forall f :: f in r <==> f in listing && EndsWith(f, NII_GZ)
    ensures SortedBy(r, LexLess)
  {
    var r := SortBy(WithSuffix(listing, NII_GZ), LexLess);
    LexLessIsStrictWeakOrder();
    SortBySorted(WithSuffix(listing, NII_GZ), LexLess);
    WithSuffixMultiplicity(listing, NII_GZ);
    assert forall f :: f in r <==> f in multiset(r);
    r
  }

  // ---------------------------------------------------------------------
  // Header

  /** `labels` and `channel_names` of an old `dataset.json`, each possibly absent. */
  datatype OldManifest = OldManifest(labels: Option<map<string, int>>, channelNames: Option<map<string, string>>)

  const DEFAULT_LABELS: map<string, int> :=
    map["background" := 0, "myocardium" := 1, "aortic_valve" := 2, "calcification" := 3]

  const DEFAULT_CHANNELS: map<string, string> := map["0" := "CT"]

  /**
   * Lines 33-52: the label definitions kept from the old manifest. `old`
   * is `None` when the file cannot be opened or parsed.
   */
  function HeaderLabels(prior: Option<OldManifest>): (labels: map<string, int>)
    ensures prior.None? ==> labels == DEFAULT_LABELS
    ensures prior.Some? ==> labels == prior.value.labels.GetOr(DEFAULT_LABELS)
  {
    match prior
    case None => DEFAULT_LABELS
    case Some(m) => m.labels.GetOr(DEFAULT_LABELS)
  }

  /** Lines 33-52: the channel names kept from the old manifest. */
  function HeaderChannels(prior: Option<OldManifest>): (channels: map<string, string>)
    ensures prior.None? ==> channels == DEFAULT_CHANNELS
    ensures prior.Some? ==> channels == prior.value.channelNames.GetOr(DEFAULT_CHANNELS)
  {
    match prior
    case None => DEFAULT_CHANNELS
    case Some(m) => m.channelNames.GetOr(DEFAULT_CHANNELS)
  }

  /** The header labels always name the four classes of the heart data set when nothing overrides them. */
  lemma DefaultLabels(prior: Option<OldManifest>)
    requires prior.None? || prior.value.labels.None?
    ensures HeaderLabels(prior).Keys == {"background", "myocardium", "aortic_valve", "calcification"}
    ensures HeaderLabels(prior)["calcification"] == 3
  {
  }

  // ---------------------------------------------------------------------
  // Pairing

  /** Lines 63-66: the label file expected for an image file. */
  function LabelNameFor(img: string): string {
    if Contains(img, IMAGE_SUFFIX) then ReplaceAll(img, IMAGE_SUFFIX, NII_GZ) else img
  }

  /** The guard only saves work: the replacement alone gives the same name. */
  lemma LabelNameIsReplace(img: string)
    ensures LabelNameFor(img) == ReplaceAll(img, IMAGE_SUFFIX, NII_GZ)
  {
    if !Contains(img, IMAGE_SUFFIX) {
      ReplaceAbsent(img, IMAGE_SUFFIX, NII_GZ);
    }
  }

  /** `<c>_0000.nii.gz` expects the label `<c>.nii.gz` for a dot-free case name. */
  lemma LabelNameOfImage(c: string)
    requires '.' !in c
    ensures LabelNameFor(c + IMAGE_SUFFIX) == c + NII_GZ
  {
    LabelNameIsReplace(c + IMAGE_SUFFIX);
    ReplaceDottedSuffix(c, IMAGE_SUFFIX, NII_GZ, 5);
  }

  /** One element of `training_list` (lines 70-73). */
  datatype Entry = Entry(imagePath: string, labelPath: string)

  function EntryFor(img: string): (e: Entry)
    ensures |IMAGES_PREFIX| <= |e.imagePath| && |LABELS_PREFIX| <= |e.labelPath|
    ensures e.imagePath[..|IMAGES_PREFIX|] == IMAGES_PREFIX && e.imagePath[|IMAGES_PREFIX|..] == img
    ensures e.labelPath[..|LABELS_PREFIX|] == LABELS_PREFIX && e.labelPath[|LABELS_PREFIX|..] == LabelNameFor(img)
  {
    Entry(IMAGES_PREFIX + img, LABELS_PREFIX + LabelNameFor(img))
  }

  /** `training_list` after the loop of lines 58-76 has seen `images`. */
  function Pairing(images: seq<string>, labels: seq<string>): seq<Entry> {
    if images == [] then []
    else
      var img := images[|images| - 1];
      Pairing(images[..|images| - 1], labels) + (if LabelNameFor(img) in labels then [EntryFor(img)] else [])
  }

  /** Lines 55-76, with `count` beside the list. */
  method BuildTraining(images: seq<string>, labels: seq<string>) returns (training: seq<Entry>, count: nat)
    ensures training == Pairing(images, labels)
    ensures count == |training|
  {
    training := [];
    count := 0;
    for i := 0 to |images|
      invariant training == Pairing(images[..i], labels)
      invariant count == |training|
    {
      var imgFile := images[i];
      assert images[..i + 1][..i] == images[..i];
      var labelFile := imgFile;
      if Contains(imgFile, IMAGE_SUFFIX) {
        labelFile := ReplaceAll(imgFile, IMAGE_SUFFIX, NII_GZ);
      }
      if labelFile in labels {
        training := training + [Entry(IMAGES_PREFIX + imgFile, LABELS_PREFIX + labelFile)];
        count := count + 1;
      }
    }
    assert images[..|images|] == images;
  }

  /** Every entry comes from some image whose label exists. */
  lemma {:induction false} PairingSound(images: seq<string>, labels: seq<string>)
    ensures forall e :: e in Pairing(images, labels) ==>
      exists img :: img in images && LabelNameFor(img) in labels && e == EntryFor(img)
  {
    if images != [] {
      var init := images[..|images| - 1];
      PairingSound(init, labels);
      forall e | e in Pairing(images, labels)
        ensures exists img :: img in images && LabelNameFor(img) in labels && e == EntryFor(img)
      {
        if e in Pairing(init, labels) {
          var img :| img in init && LabelNameFor(img) in labels && e == EntryFor(img);
          assert img in images;
        } else {
          assert images[|images| - 1] in images;
        }
      }
    }
  }

  /** Every image whose label exists has its entry. */
  lemma {:induction false} PairingComplete(images: seq<string>, labels: seq<string>)
    ensures forall img :: img in images && LabelNameFor(img) in labels ==> EntryFor(img) in Pairing(images, labels)
  {
    if images != [] {
      var init := images[..|images| - 1];
      PairingComplete(init, labels);
      forall img | img in images && LabelNameFor(img) in labels
        ensures EntryFor(img) in Pairing(images, labels)
      {
        if img != images[|images| - 1] {
          var k :| 0 <= k < |images| && images[k] == img;
          assert init[k] == img;
        }
      }
    }
  }

  /** An image is in `training` if and only if its expected label is listed (lines 69-76). */
  lemma PairingMembership(images: seq<string>, labels: seq<string>, img: string)
    requires img in images
    ensures EntryFor(img) in Pairing(images, labels) <==> LabelNameFor(img) in labels
  {
    PairingComplete(images, labels);
    PairingSound(images, labels);
    if EntryFor(img) in Pairing(images, labels) {
      var other :| other in images && LabelNameFor(other) in labels && EntryFor(img) == EntryFor(other);
      assert other == EntryFor(other).imagePath[|IMAGES_PREFIX|..];
    }
  }

  /** At most one entry per image. */
  lemma {:induction false} PairingAtMostImages(images: seq<string>, labels: seq<string>)
    ensures |Pairing(images, labels)| <= |images|
  {
    if images != [] {
      PairingAtMostImages(images[..|images| - 1], labels);
    }
  }

  /** The expected label names of the paired images, in order. */
  ghost function PairedLabels(images: seq<string>, labels: seq<string>): seq<string> {
    if images == [] then []
    else
      var img := images[|images| - 1];
      PairedLabels(images[..|images| - 1], labels) + (if LabelNameFor(img) in labels then [LabelNameFor(img)] else [])
  }

  /** No two images expect the same label file. */
  ghost predicate DistinctLabelNames(images: seq<string>) {
    forall i, j :: 0 <= i < j < |images| ==> LabelNameFor(images[i]) != LabelNameFor(images[j])
  }

  /**
   * One label name per entry; all of them listed, and distinct when the
   * images expect distinct labels.
   */
  lemma {:induction false} PairedLabelsFacts(images: seq<string>, labels: seq<string>)
    ensures |PairedLabels(images, labels)| == |Pairing(images, labels)|
    ensures forall n :: n in PairedLabels(images, labels) ==> n in labels
    ensures forall n :: n in PairedLabels(images, labels) ==> exists img :: img in images && n == LabelNameFor(img)
    ensures DistinctLabelNames(images) ==> var names := PairedLabels(images, labels);
      forall i, j :: 0 <= i < j < |names| ==> names[i] != names[j]
  {
    if images != [] {
      var init := images[..|images| - 1];
      var last := images[|images| - 1];
      PairedLabelsFacts(init, labels);
      var names := PairedLabels(images, labels);
      var prev := PairedLabels(init, labels);
      forall n | n in names
        ensures exists img :: img in images && n == LabelNameFor(img)
      {
        if n in prev {
          var img :| img in init && n == LabelNameFor(img);
          assert img in images;
        } else {
          assert last in images;
        }
      }
      if DistinctLabelNames(images) {
        assert DistinctLabelNames(init);
        forall i, j | 0 <= i < j < |names|
          ensures names[i] != names[j]
        {
          if j == |names| - 1 && |names| > |prev| {
            assert names[i] in prev;
            var img :| img in init && names[i] == LabelNameFor(img);
            var k :| 0 <= k < |init| && init[k] == img;
            assert images[k] == img;
          } else {
            assert prev[i] == names[i] && prev[j] == names[j];
          }
        }
      }
    }
  }

  /** A sequence of distinct elements has as many elements as its set. */
  lemma {:induction false} DistinctCardinality(s: seq<string>)
    requires forall i, j :: 0 <= i < j < |s| ==> s[i] != s[j]
    ensures |set x | x in s| == |s|
  {
    if s != [] {
      var init := s[..|s| - 1];
      DistinctCardinality(init);
      assert (set x | x in s) == (set x | x in init) + {s[|s| - 1]};
      assert s[|s| - 1] !in init;
    }
  }

  /** A sequence has at least as many elements as its set. */
  lemma {:induction false} SetCardinality(s: seq<string>)
    ensures |set x | x in s| <= |s|
  {
    if s != [] {
      var init := s[..|s| - 1];
      SetCardinality(init);
      assert (set x | x in s) == (set x | x in init) + {s[|s| - 1]};
    }
  }

  lemma {:induction false} SubsetCardinality(a: set<string>, b: set<string>)
    requires a <= b
    ensures |a| <= |b|
    decreases |a|
  {
    if a != {} {
      var x :| x in a;
      SubsetCardinality(a - {x}, b - {x});
    }
  }

  /**
   * `numTraining` is at most the number of label files, provided no two
   * image files expect the same label file.
   */
  lemma PairingAtMostLabels(images: seq<string>, labels: seq<string>)
    requires DistinctLabelNames(images)
    ensures |Pairing(images, labels)| <= |labels|
  {
    var names := PairedLabels(images, labels);
    PairedLabelsFacts(images, labels);
    DistinctCardinality(names);
    SetCardinality(labels);
    assert |set x | x in names| == |names| == |Pairing(images, labels)|;
    assert (set x | x in names) <= (set x | x in labels);
    SubsetCardinality(set x | x in names, set x | x in labels);
  }

  /**
   * Without that proviso the bound fails: for a short dot-free case name `c`
   * (such as `a`), both `<c>.nii.gz` and `<c>_0000.nii.gz` expect
   * `<c>.nii.gz`, so one label file yields two entries.
   */
  lemma TwoImagesOneLabel(c: string)
    requires '.' !in c && |c| < 5
    ensures |Pairing([c + NII_GZ, c + IMAGE_SUFFIX], [c + NII_GZ])| == 2
  {
    var plain, suffixed := c + NII_GZ, c + IMAGE_SUFFIX;
    var images, labels := [plain, suffixed], [plain];
    assert LabelNameFor(plain) == plain by {
      assert |plain| < |IMAGE_SUFFIX|;
    }
    LabelNameOfImage(c);
    assert images[..1] == [plain];
    assert [plain][..0] == [];
    assert Pairing([plain], labels) == [EntryFor(plain)];
  }

  /** `<p> + a` precedes `<p> + b` exactly when `a` precedes `b`. */
  lemma {:induction false} LexLessCommonPrefix(p: string, a: string, b: string)
    ensures LexLess(p + a, p + b) == LexLess(a, b)
  {
    if p != [] {
      var pa, pb := p + a, p + b;
      assert pa != [] && pb != [] && pa[0] == pb[0];
      assert pa[1..] == p[1..] + a;
      assert pb[1..] == p[1..] + b;
      assert LexLess(pa, pb) == LexLess(pa[1..], pb[1..]);
      LexLessCommonPrefix(p[1..], a, b);
    } else {
      assert p + a == a && p + b == b;
    }
  }

  /** No entry's image path comes before that of an earlier entry. */
  predicate InImageOrder(t: seq<Entry>) {
    forall i, j :: 0 <= i < j < |t| ==> !LexLess(t[j].imagePath, t[i].imagePath)
  }

  /** Sorted images give entries in image order. */
  lemma {:induction false} PairingSorted(images: seq<string>, labels: seq<string>)
    requires SortedBy(images, LexLess)
    ensures InImageOrder(Pairing(images, labels))
  {
    if images != [] {
      var init, last := images[..|images| - 1], images[|images| - 1];
      PairingSorted(init, labels);
      var prev, t := Pairing(init, labels), Pairing(images, labels);
      assert InImageOrder(prev);
      assert t == prev + (if LabelNameFor(last) in labels then [EntryFor(last)] else []);
      forall i, j | 0 <= i < j < |t|
        ensures !LexLess(t[j].imagePath, t[i].imagePath)
      {
        if j < |prev| {
          assert prev[i] == t[i] && prev[j] == t[j];
          assert !LexLess(prev[j].imagePath, prev[i].imagePath);
        } else {
          assert prev[i] in prev;
          NewEntryAfter(images, labels, prev[i]);
          assert t[j] == EntryFor(last) && t[i] == prev[i];
        }
      }
    }
  }

  /** An entry of the earlier images never comes after the entry of a later, sorted image. */
  lemma NewEntryAfter(images: seq<string>, labels: seq<string>, e: Entry)
    requires SortedBy(images, LexLess) && images != []
    requires e in Pairing(images[..|images| - 1], labels)
    ensures !LexLess(EntryFor(images[|images| - 1]).imagePath, e.imagePath)
  {
    var init, last := images[..|images| - 1], images[|images| - 1];
    PairingSound(init, labels);
    var img :| img in init && LabelNameFor(img) in labels && e == EntryFor(img);
    var k :| 0 <= k < |init| && init[k] == img;
    assert images[k] == img && !LexLess(last, img);
    LexLessCommonPrefix(IMAGES_PREFIX, last, img);
  }

  // ---------------------------------------------------------------------
  // The manifest

  /** The dictionary of lines 79-86. */
  datatype Manifest = Manifest(
    channelNames: map<string, string>,
    labels: map<string, int>,
    numTraining: nat,
    fileEnding: string,
    readerWriter: string,
    training: seq<Entry>)

  /**
   * The whole script except the JSON reading and writing: `imageListing`
   * and `labelListing` are the two directory listings and `prior` the old
   * manifest, if readable.
   */
  method FixDatasetJson(imageListing: seq<string>, labelListing: seq<string>, prior: Option<OldManifest>)
    returns (m: Manifest)
    ensures m.training == Pairing(NiftiFiles(imageListing), NiftiFiles(labelListing))
    ensures m.numTraining == |m.training| <= |NiftiFiles(imageListing)|
    ensures m.labels == HeaderLabels(prior) && m.channelNames == HeaderChannels(prior)
    ensures m.fileEnding == NII_GZ && m.readerWriter == "SimpleITKIO"
    ensures forall i, j :: 0 <= i < j < |m.training| ==> !LexLess(m.training[j].imagePath, m.training[i].imagePath)
  {
    var imageFiles := NiftiFiles(imageListing);
    var labelFiles := NiftiFiles(labelListing);
    var labels := HeaderLabels(prior);
    var channelNames := HeaderChannels(prior);
    var training, count := BuildTraining(imageFiles, labelFiles);
    PairingAtMostImages(imageFiles, labelFiles);
    PairingSorted(imageFiles, labelFiles);
    m := Manifest(channelNames, labels, |training|, NII_GZ, "SimpleITKIO", training);
  }
}

=== FILE: move_pseudo.dfy ===
/**
 * Adding pseudo-labelled cases to the training set
 * (src/preprocess/move_pseudo.py): for every selected case the test image
 * and the predicted mask are copied, under a `pseudo_` name, into the
 * training image and label directories, both or neither.
 */
module MovePseudo {
  import opened Strings
  import DatasetJson

  /** The four directories the script touches. */
  datatype Dir = TestImages | BestPrediction | ImagesTr | LabelsTr

  datatype Path = Path(dir: Dir, name: string)

  /** What the loop body does for one case: a copy, or a report of missing sources. */
  datatype Action =
    | Copy(src: Path, dst: Path)
    | Missing(caseId: string, imageMissing: bool, labelMissing: bool)

  /** Line 29. */
  function SourceImage(c: string): Path {
    Path(TestImages, c + "_0000.nii.gz")
  }

  /** Line 30. */
  function SourceLabel(c: string): Path {
    Path(BestPrediction, c + ".nii.gz")
  }

  /** Line 33. */
  function DestImage(c: string): Path {
    Path(ImagesTr, "pseudo_" + c + "_0000.nii.gz")
  }

  /** Line 34. */
  function DestLabel(c: string): Path {
    Path(LabelsTr, "pseudo_" + c + ".nii.gz")
  }

  /**
   * Lines 37-44 for one case, against the set `fs` of existing files: both
   * copies when both sources exist, otherwise a report of which are missing.
   */
  function Step(c: string, fs: set<Path>): (r: seq<Action>)
    ensures |r| == if SourceImage(c) in fs && SourceLabel(c) in fs then 2 else 1
    ensures Copy(SourceImage(c), DestImage(c)) in r <==> SourceImage(c) in fs && SourceLabel(c) in fs
    ensures Copy(SourceLabel(c), DestLabel(c)) in r <==> SourceImage(c) in fs && SourceLabel(c) in fs
    ensures Missing(c, SourceImage(c) !in fs, SourceLabel(c) !in fs) in r <==> !(SourceImage(c) in fs && SourceLabel(c) in fs)
    ensures forall a :: a in r && a.Copy? ==> a.dst.dir == ImagesTr || a.dst.dir == LabelsTr
  {
    if SourceImage(c) in fs && SourceLabel(c) in fs then
      [Copy(SourceImage(c), DestImage(c)), Copy(SourceLabel(c), DestLabel(c))]
    else
      [Missing(c, SourceImage(c) !in fs, SourceLabel(c) !in fs)]
  }

  /** The actions of the loop of lines 26-44 over `cases`, in list order. */
  function Plan(cases: seq<string>, fs: set<Path>): (r: seq<Action>)
    ensures forall a :: a in r && a.Copy? ==> a.dst.dir == ImagesTr || a.dst.dir == LabelsTr
  {
    if cases == [] then []
    else Plan(cases[..|cases| - 1], fs) + Step(cases[|cases| - 1], fs)
  }

  /** The files the copies create. */
  function Written(actions: seq<Action>): set<Path> {
    set a | a in actions && a.Copy? :: a.dst
  }

  /**
   * Lines 26-44. `fs` is the set of files that exist beforehand; the method
   * returns the actions taken and the files that exist afterwards. The
   * existence checks see the files as they are at that point of the loop.
   */
  method MovePseudo(cases: seq<string>, fs: set<Path>) returns (actions: seq<Action>, after: set<Path>)
    ensures actions == Plan(cases, fs)
    ensures after == fs + Written(actions)
  {
    actions := [];
    after := fs;
    for i := 0 to |cases|
      invariant actions == Plan(cases[..i], fs)
      invariant after == fs + Written(actions)
    {
      var caseId := cases[i];
      assert cases[..i + 1][..i] == cases[..i];
      assert Plan(cases[..i + 1], fs) == actions + Step(caseId, fs);
      var srcImg := SourceImage(caseId);
      var srcSeg := SourceLabel(caseId);
      var dstImg := DestImage(caseId);
      var dstSeg := DestLabel(caseId);
      // nothing written so far lies in a source directory
      SourcesNotWritten(actions, caseId);
      WrittenAppend(actions, Step(caseId, fs));
      if srcImg in after && srcSeg in after {
        actions := actions + [Copy(srcImg, dstImg), Copy(srcSeg, dstSeg)];
        after := after + {dstImg, dstSeg};
      } else {
        actions := actions + [Missing(caseId, srcImg !in after, srcSeg !in after)];
      }
    }
    assert cases[..|cases|] == cases;
  }

  /** Copies only write into the training folders, never into a source folder. */
  lemma SourcesNotWritten(actions: seq<Action>, c: string)
    requires forall a :: a in actions && a.Copy? ==> a.dst.dir == ImagesTr || a.dst.dir == LabelsTr
    ensures SourceImage(c) !in Written(actions) && SourceLabel(c) !in Written(actions)
  {
  }

  /** The files written by a sequence of actions followed by more actions. */
  lemma WrittenAppend(actions: seq<Action>, step: seq<Action>)
    ensures Written(actions + step) == Written(actions) + Written(step)
  {
  }

  /** A missing case does not stop the cases after it: plans compose. */
  lemma {:induction false} PlanAppend(first: seq<string>, rest: seq<string>, fs: set<Path>)
    ensures Plan(first + rest, fs) == Plan(first, fs) + Plan(rest, fs)
  {
    if rest != [] {
      var init := rest[..|rest| - 1];
      assert (first + rest)[..|first + rest| - 1] == first + init;
      assert (first + rest)[|first + rest| - 1] == rest[|rest| - 1];
      PlanAppend(first, init, fs);
    } else {
      assert first + rest == first;
    }
  }

  lemma SuffixCancel(a: string, b: string, s: string)
    requires a + s == b + s
    ensures a == b
  {
    assert a == (a + s)[..|a|];
    assert b == (b + s)[..|b|];
  }

  /** Different cases have different source and destination files. */
  lemma NamesInjective(c: string, d: string)
    ensures SourceImage(c) == SourceImage(d) ==> c == d
    ensures SourceLabel(c) == SourceLabel(d) ==> c == d
    ensures DestImage(c) == DestImage(d) ==> c == d
    ensures DestLabel(c) == DestLabel(d) ==> c == d
  {
    assert c == ("pseudo_" + c)[7..];
    assert d == ("pseudo_" + d)[7..];
    if SourceImage(c) == SourceImage(d) {
      SuffixCancel(c, d, "_0000.nii.gz");
    }
    if SourceLabel(c) == SourceLabel(d) {
      SuffixCancel(c, d, ".nii.gz");
    }
    if DestImage(c) == DestImage(d) {
      SuffixCancel("pseudo_" + c, "pseudo_" + d, "_0000.nii.gz");
    }
    if DestLabel(c) == DestLabel(d) {
      SuffixCancel("pseudo_" + c, "pseudo_" + d, ".nii.gz");
    }
  }

  /** Every copy in a plan comes from the step of some listed case. */
  lemma {:induction false} PlanCopiesFromCases(cases: seq<string>, fs: set<Path>, a: Action)
    requires a in Plan(cases, fs)
    ensures exists c :: c in cases && a in Step(c, fs)
  {
    if cases != [] {
      var init := cases[..|cases| - 1];
      var last := cases[|cases| - 1];
      if a in Plan(init, fs) {
        PlanCopiesFromCases(init, fs, a);
        var c :| c in init && a in Step(c, fs);
        assert c in cases;
      } else {
        assert last in cases;
      }
    }
  }

  lemma {:induction false} StepInPlan(cases: seq<string>, fs: set<Path>, c: string)
    requires c in cases
    ensures forall a :: a in Step(c, fs) ==> a in Plan(cases, fs)
  {
    var init := cases[..|cases| - 1];
    if c != cases[|cases| - 1] {
      var k :| 0 <= k < |cases| && cases[k] == c;
      assert init[k] == c;
      StepInPlan(init, fs, c);
    }
  }

  /** A copy into the training set comes from the step of a listed case whose sources both exist. */
  lemma CopyFromListedCase(cases: seq<string>, fs: set<Path>, a: Action, c: string)
    requires a in Plan(cases, fs)
    requires a == Copy(SourceImage(c), DestImage(c)) || a == Copy(SourceLabel(c), DestLabel(c))
    ensures c in cases && SourceImage(c) in fs && SourceLabel(c) in fs
  {
    PlanCopiesFromCases(cases, fs, a);
    var d :| d in cases && a in Step(d, fs);
    assert SourceImage(d) in fs && SourceLabel(d) in fs;
    assert a == Copy(SourceImage(d), DestImage(d)) || a == Copy(SourceLabel(d), DestLabel(d));
    NamesInjective(c, d);
  }

  /**
   * A case's image is copied exactly when the case is listed and both of
   * its sources exist, and then so is its mask.
   */
  lemma CopiedIffBothSources(cases: seq<string>, fs: set<Path>, c: string)
    ensures Copy(SourceImage(c), DestImage(c)) in Plan(cases, fs) <==> c in cases && SourceImage(c) in fs && SourceLabel(c) in fs
    ensures Copy(SourceLabel(c), DestLabel(c)) in Plan(cases, fs) <==> c in cases && SourceImage(c) in fs && SourceLabel(c) in fs
  {
    var p := Plan(cases, fs);
    var ci := Copy(SourceImage(c), DestImage(c));
    var cl := Copy(SourceLabel(c), DestLabel(c));
    if c in cases {
      StepInPlan(cases, fs, c);
    }
    if ci in p {
      CopyFromListedCase(cases, fs, ci, c);
    }
    if cl in p {
      CopyFromListedCase(cases, fs, cl, c);
    }
  }

  /** The only copy that writes a given destination is the one of its own case. */
  lemma CopyToDestination(cases: seq<string>, fs: set<Path>, a: Action, c: string)
    requires a in Plan(cases, fs) && a.Copy?
    ensures a.dst == DestImage(c) ==> a == Copy(SourceImage(c), DestImage(c))
    ensures a.dst == DestLabel(c) ==> a == Copy(SourceLabel(c), DestLabel(c))
  {
    PlanCopiesFromCases(cases, fs, a);
    var d :| d in cases && a in Step(d, fs);
    assert a == Copy(SourceImage(d), DestImage(d)) || a == Copy(SourceLabel(d), DestLabel(d));
    NamesInjective(c, d);
  }

  /** A case's destination is written only by that case's own copy. */
  lemma WrittenOnlyByOwnCopy(cases: seq<string>, fs: set<Path>, c: string)
    ensures DestImage(c) in Written(Plan(cases, fs)) <==> Copy(SourceImage(c), DestImage(c)) in Plan(cases, fs)
    ensures DestLabel(c) in Written(Plan(cases, fs)) <==> Copy(SourceLabel(c), DestLabel(c)) in Plan(cases, fs)
  {
    var p := Plan(cases, fs);
    if DestImage(c) in Written(p) {
      var a :| a in p && a.Copy? && a.dst == DestImage(c);
      CopyToDestination(cases, fs, a, c);
    }
    if DestLabel(c) in Written(p) {
      var a :| a in p && a.Copy? && a.dst == DestLabel(c);
      CopyToDestination(cases, fs, a, c);
    }
  }

  /**
   * Both or nothing: for a case whose destinations did not exist before,
   * its image is in the training set afterwards exactly when its mask is,
   * and exactly when the case is listed and both its sources exist.
   */
  lemma BothOrNeither(cases: seq<string>, fs: set<Path>, c: string)
    requires DestImage(c) !in fs && DestLabel(c) !in fs
    ensures DestImage(c) in fs + Written(Plan(cases, fs)) <==> DestLabel(c) in fs + Written(Plan(cases, fs))
    ensures DestImage(c) in fs + Written(Plan(cases, fs)) <==> c in cases && SourceImage(c) in fs && SourceLabel(c) in fs
  {
    CopiedIffBothSources(cases, fs, c);
    WrittenOnlyByOwnCopy(cases, fs, c);
  }

  /**
   * The copied pair is a training pair for the manifest rebuild: the
   * destination image name expects the destination label name.
   */
  lemma DestinationsPair(c: string)
    requires '.' !in c
    ensures DatasetJson.LabelNameFor(DestImage(c).name) == DestLabel(c).name
  {
    DatasetJson.LabelNameOfImage("pseudo_" + c);
  }
}

=== FILE: pack_submission.dfy ===
/**
 * Packing the competition submission (src/postprocess/pack_submission.py):
 * every `.nii.gz` prediction is copied into a fresh folder as
 * `<stem>_predict.nii.gz`, and the folder's files go into the archive under
 * their bare names.
 */
module PackSubmission {
  import opened Strings

  const NII_GZ: string := ".nii.gz"
  const PREDICT_SUFFIX: string := "_predict.nii.gz"

  /** `submission_folder` (line 9). */
  const SUBMISSION_DIR: string := "./submission_temp/"

  /**
   * Lines 21-22: the text before the first dot, followed by
   * `_predict.nii.gz`. The stem holds no dot.
   */
  function SubmissionName(filename: string): (r: string)
    ensures |PREDICT_SUFFIX| <= |r| && EndsWith(r, PREDICT_SUFFIX)
    ensures '.' !in r[..|r| - |PREDICT_SUFFIX|]
    ensures r[..|r| - |PREDICT_SUFFIX|] <= filename
    ensures |r| - |PREDICT_SUFFIX| < |filename| ==> filename[|r| - |PREDICT_SUFFIX|] == '.'
  {
    var baseName := BeforeFirst(filename, '.');
    var r := baseName + PREDICT_SUFFIX;
    assert r[..|r| - |PREDICT_SUFFIX|] == baseName;
    r
  }

  /** `<c>.nii.gz` becomes `<c>_predict.nii.gz` for a dot-free case name. */
  lemma SubmissionNameOfCase(c: string)
    requires '.' !in c
    ensures SubmissionName(c + NII_GZ) == c + PREDICT_SUFFIX
  {
    BeforeFirstOfStem(c, NII_GZ);
  }

  /** The example of line 17. */
  lemma SubmissionNameExample()
    ensures SubmissionName("patient0051.nii.gz") == "patient0051_predict.nii.gz"
  {
    var c := "patient0051";
    assert '.' !in c;
    SubmissionNameOfCase(c);
    assert c + NII_GZ == "patient0051.nii.gz";
    assert c + PREDICT_SUFFIX == "patient0051_predict.nii.gz";
  }

  /** Two files get the same new name exactly when their stems agree. */
  lemma SameNameIffSameStem(f: string, g: string)
    ensures SubmissionName(f) == SubmissionName(g) <==> BeforeFirst(f, '.') == BeforeFirst(g, '.')
  {
    var a, b := BeforeFirst(f, '.'), BeforeFirst(g, '.');
    if SubmissionName(f) == SubmissionName(g) {
      assert a == (a + PREDICT_SUFFIX)[..|a|];
      assert b == (b + PREDICT_SUFFIX)[..|b|];
    }
  }

  /** A file name without `/` gives a new name without `/`: no directory part. */
  lemma SubmissionNameIsBare(f: string)
    requires '/' !in f
    ensures '/' !in SubmissionName(f)
  {
    var b := BeforeFirst(f, '.');
    forall i | 0 <= i < |b|
      ensures b[i] != '/'
    {
      assert b[i] == f[i];
    }
    assert '/' !in PREDICT_SUFFIX;
    assert SubmissionName(f) == b + PREDICT_SUFFIX;
  }

  /**
   * The submission folder after the copy loop of lines 18-25 has seen
   * `listing`: each new name maps to the source file last copied to it.
   */
  function Packed(listing: seq<string>): map<string, string> {
    if listing == [] then map[]
    else
      var folder := Packed(listing[..|listing| - 1]);
      var f := listing[|listing| - 1];
      if EndsWith(f, NII_GZ) then folder[SubmissionName(f) := f] else folder
  }

  /** Lines 13-25: a fresh folder, then one copy per `.nii.gz` file in listing order. */
  method CopyRenamed(listing: seq<string>) returns (folder: map<string, string>)
    ensures folder == Packed(listing)
  {
    folder := map[];
    for i := 0 to |listing|
      invariant folder == Packed(listing[..i])
    {
      var filename := listing[i];
      assert listing[..i + 1][..i] == listing[..i];
      if EndsWith(filename, NII_GZ) {
        var baseName := BeforeFirst(filename, '.');
        var newName := baseName + PREDICT_SUFFIX;
        folder := folder[newName := filename];
      }
    }
    assert listing[..|listing|] == listing;
  }

  /**
   * Every file of the folder is the renamed copy of a listed `.nii.gz`
   * file, and every listed `.nii.gz` file has its new name in the folder.
   */
  lemma {:induction false} PackedContents(listing: seq<string>)
    ensures forall k :: k in Packed(listing) ==>
      Packed(listing)[k] in listing && EndsWith(Packed(listing)[k], NII_GZ) && SubmissionName(Packed(listing)[k]) == k
    ensures forall f :: f in listing && EndsWith(f, NII_GZ) ==> SubmissionName(f) in Packed(listing)
  {
    if listing != [] {
      var init, last := listing[..|listing| - 1], listing[|listing| - 1];
      var before, after := Packed(init), Packed(listing);
      PackedContents(init);
      assert after == if EndsWith(last, NII_GZ) then before[SubmissionName(last) := last] else before;
      forall k | k in after
        ensures after[k] in listing && EndsWith(after[k], NII_GZ) && SubmissionName(after[k]) == k
      {
        if !(EndsWith(last, NII_GZ) && k == SubmissionName(last)) {
          assert after[k] == before[k] && before[k] in init;
        }
      }
      forall f | f in listing && EndsWith(f, NII_GZ)
        ensures SubmissionName(f) in after
      {
        if f != last {
          var j :| 0 <= j < |listing| && listing[j] == f;
          assert init[j] == f;
        }
      }
    }
  }

  /**
   * A later file with the same stem overwrites an earlier one: the copy
   * that stays is the last listed `.nii.gz` file with that new name.
   */
  lemma {:induction false} LastCopyWins(listing: seq<string>, i: nat)
    requires i < |listing| && EndsWith(listing[i], NII_GZ)
    requires forall j :: i < j < |listing| && EndsWith(listing[j], NII_GZ) ==> SubmissionName(listing[j]) != SubmissionName(listing[i])
    ensures SubmissionName(listing[i]) in Packed(listing)
    ensures Packed(listing)[SubmissionName(listing[i])] == listing[i]
  {
    var init := listing[..|listing| - 1];
    if i < |listing| - 1 {
      assert init[i] == listing[i];
      LastCopyWins(init, i);
    }
  }

  /** One `zipf.write(path, arcname=...)` call (line 33). */
  datatype ZipEntry = ZipEntry(path: string, arcname: string)

  /**
   * Lines 30-33. `walked` is the file list `os.walk` reports for the
   * submission folder, which holds no subfolder: its files, each once, in
   * whatever order the walk yields them.
   */
  method WriteArchive(folder: map<string, string>, walked: seq<string>) returns (entries: seq<ZipEntry>)
    requires forall f :: f in walked <==> f in folder
    ensures |entries| == |walked|
    ensures forall i :: 0 <= i < |entries| ==> entries[i] == ZipEntry(SUBMISSION_DIR + walked[i], walked[i])
    ensures forall n :: n in folder <==> exists e :: e in entries && e.arcname == n
  {
    entries := [];
    for i := 0 to |walked|
      invariant |entries| == i
      invariant forall j :: 0 <= j < i ==> entries[j] == ZipEntry(SUBMISSION_DIR + walked[j], walked[j])
    {
      var file := walked[i];
      entries := entries + [ZipEntry(SUBMISSION_DIR + file, file)];
    }
    forall n | n in folder
      ensures exists e :: e in entries && e.arcname == n
    {
      var j :| 0 <= j < |walked| && walked[j] == n;
      assert entries[j] in entries;
    }
  }

  /**
   * The whole script: the archive holds one entry per new name, each under
   * its bare name, and each new name is that of a listed `.nii.gz` file.
   */
  method Pack(listing: seq<string>, walkOrder: seq<string>) returns (entries: seq<ZipEntry>)
    requires forall f :: f in walkOrder <==> f in Packed(listing)
    ensures forall e :: e in entries ==> e.path == SUBMISSION_DIR + e.arcname
    ensures forall e :: e in entries ==> exists f :: f in listing && EndsWith(f, NII_GZ) && e.arcname == SubmissionName(f)
    ensures forall f :: f in listing && EndsWith(f, NII_GZ) ==> exists e :: e in entries && e.arcname == SubmissionName(f)
  {
    var folder := CopyRenamed(listing);
    PackedContents(listing);
    entries := WriteArchive(folder, walkOrder);
    forall e | e in entries
      ensures exists f :: f in listing && EndsWith(f, NII_GZ) && e.arcname == SubmissionName(f)
    {
      assert e.arcname in folder;
      assert folder[e.arcname] in listing;
    }
  }
}

=== FILE: post_process.dfy ===
/**
 * Per-label largest-connected-component cleanup
 * (src/postprocess/post_process.py, `keep_largest_connected_component`).
 * The output starts all background; for every non-zero label listed in
 * `labels_info` that occurs in the volume, only its largest component
 * (26-connectivity, `connectivity=3`) is written back.
 */
module PostProcess {
  import opened Reduce
  import opened Components

  /** `connectivity=3` at line 31. */
  const CONNECTIVITY: nat := 3

  /** The keys of `labels_info` at line 45, in dictionary order. */
  const LABELS: seq<int> := [1, 2, 3]

  /** The labelling of the voxels that hold label `l`. */
  function LabelComponents(volume: seq<int>, l: int, labeller: Labeller): Labelling {
    labeller(LabelMask(volume, l), CONNECTIVITY)
  }

  /** Voxel `v` lies in the largest component of its own label. */
  predicate InLargest(volume: seq<int>, labeller: Labeller, v: nat)
    requires v < |volume|
  {
    var lab := LabelComponents(volume, volume[v], labeller);
    lab.count > 0 && v < |lab.ids| && lab.ids[v] == Largest(lab)
  }

  /** What `keep_largest_connected_component(volume, labels_info)` returns. */
  function KeepLargest(volume: seq<int>, labels: seq<int>, labeller: Labeller): (r: seq<int>)
    ensures |r| == |volume|
    ensures forall v :: 0 <= v < |r| ==> r[v] == 0 || r[v] == volume[v]
    ensures forall v :: 0 <= v < |r| && (volume[v] == 0 || volume[v] !in labels) ==> r[v] == 0
  {
    seq(|volume|, v requires 0 <= v < |volume| =>
      if volume[v] != 0 && volume[v] in labels && InLargest(volume, labeller, v) then volume[v] else 0)
  }

  /**
   * Lines 16-42. `final_volume` is a zero array filled label by label with
   * the masked assignment of line 40.
   */
  method KeepLargestConnectedComponent(volume: seq<int>, labels: seq<int>, labeller: Labeller)
    returns (r: seq<int>)
    requires Sound(labeller)
    ensures r == KeepLargest(volume, labels, labeller)
  {
    var finalVolume := new int[|volume|](_ => 0);
    for i := 0 to |labels|
      invariant forall v :: 0 <= v < |volume| ==>
        finalVolume[v] == if volume[v] != 0 && volume[v] in labels[..i] && InLargest(volume, labeller, v) then volume[v] else 0
    {
      var labelVal := labels[i];
      assert labels[..i + 1] == labels[..i] + [labelVal];
      if labelVal == 0 {
        continue;
      }
      var mask := LabelMask(volume, labelVal);
      if Count(mask, true) == 0 {
        continue;
      }
      var labeled := labeller(mask, CONNECTIVITY);
      assert Partitions(mask, labeled);
      if labeled.count > 0 {
        var largest := Largest(labeled);
        forall v | 0 <= v < finalVolume.Length && labeled.ids[v] == largest {
          finalVolume[v] := labelVal;
        }
      }
    }
    assert labels[..|labels|] == labels;
    r := finalVolume[..];
  }

  /**
   * For each listed non-zero label present in the input, the output voxels
   * of that label are exactly one component of the input's mask for it:
   * one of largest size, the lowest-numbered among equals.
   */
  lemma OutputIsLargestComponent(volume: seq<int>, labels: seq<int>, labeller: Labeller, l: int)
    requires Sound(labeller)
    requires l != 0 && l in labels && l in volume
    ensures var lab := LabelComponents(volume, l, labeller);
      && lab.count > 0
      && LabelMask(KeepLargest(volume, labels, labeller), l) == ComponentMask(lab, Largest(lab))
      && (forall c :: 1 <= c <= lab.count ==> Size(lab, c) <= Size(lab, Largest(lab)))
      && (forall c :: 1 <= c < Largest(lab) ==> Size(lab, c) < Size(lab, Largest(lab)))
  {
    var lab := LabelComponents(volume, l, labeller);
    var mask := LabelMask(volume, l);
    assert Partitions(mask, lab);
    var v :| 0 <= v < |volume| && volume[v] == l;
    assert lab.ids[v] != 0;
    var r := KeepLargest(volume, labels, labeller);
    var a := LabelMask(r, l);
    var b := ComponentMask(lab, Largest(lab));
    forall u | 0 <= u < |volume|
      ensures a[u] == b[u]
    {
      if lab.ids[u] == Largest(lab) {
        assert mask[u];
      }
    }
  }

  /**
   * The script's own call at line 57, with the labels of line 45: the output
   * holds only background, myocardium, aortic valve and calcification, and
   * any other label in the input becomes background.
   */
  lemma ScriptOutputLabels(volume: seq<int>, labeller: Labeller)
    ensures var r := KeepLargest(volume, LABELS, labeller);
      forall v :: 0 <= v < |r| ==> 0 <= r[v] <= 3 && (volume[v] < 1 || 3 < volume[v] ==> r[v] == 0)
  {
  }

  /** A label never has more voxels after the cleanup than before. */
  lemma CountDoesNotGrow(volume: seq<int>, labels: seq<int>, labeller: Labeller, l: int)
    requires l != 0
    ensures Count(KeepLargest(volume, labels, labeller), l) <= Count(volume, l)
  {
    CountMonotone(volume, l, KeepLargest(volume, labels, labeller), l);
  }

  /** Labels are handled independently: the order of `labels_info` does not matter. */
  lemma LabelOrderIrrelevant(volume: seq<int>, labels: seq<int>, labels': seq<int>, labeller: Labeller)
    requires forall l :: l in labels <==> l in labels'
    ensures KeepLargest(volume, labels, labeller) == KeepLargest(volume, labels', labeller)
  {
  }

  /**
   * Idempotence: when a component labelled on its own is one component,
   * cleaning the cleaned volume changes nothing.
   */
  lemma Idempotent(volume: seq<int>, labels: seq<int>, labeller: Labeller)
    requires Sound(labeller) && Stable(labeller, CONNECTIVITY)
    ensures var r := KeepLargest(volume, labels, labeller);
      KeepLargest(r, labels, labeller) == r
  {
    var r := KeepLargest(volume, labels, labeller);
    var rr := KeepLargest(r, labels, labeller);
    forall v | 0 <= v < |r|
      ensures rr[v] == r[v]
    {
      if r[v] != 0 {
        StaysLargest(volume, labels, labeller, v);
      }
    }
  }

  /**
   * A voxel kept by the cleanup lies, in the cleaned volume, in the largest
   * component of its label: that component is all that is left of the label.
   */
  lemma StaysLargest(volume: seq<int>, labels: seq<int>, labeller: Labeller, v: nat)
    requires Sound(labeller) && Stable(labeller, CONNECTIVITY)
    requires v < |volume| && KeepLargest(volume, labels, labeller)[v] != 0
    ensures InLargest(KeepLargest(volume, labels, labeller), labeller, v)
  {
    var r := KeepLargest(volume, labels, labeller);
    var l := r[v];
    assert volume[v] == l && l in labels;
    var lab := LabelComponents(volume, l, labeller);
    OutputIsLargestComponent(volume, labels, labeller, l);
    assert lab.ids[v] == Largest(lab) && lab.ids[v] in lab.ids;
    assert Size(lab, Largest(lab)) > 0;
    var mask := LabelMask(r, l);
    var again := labeller(mask, CONNECTIVITY);
    assert mask == ComponentMask(lab, Largest(lab));
    assert again.count == 1;
    assert Partitions(mask, again) && mask[v];
    assert again.ids[v] == 1 == Largest(again);
  }
}

=== FILE: reduce.dfy ===
/** The two numpy reductions the scripts use: `np.argmax` and `np.sum` of a mask. */
module Reduce {

  /**
   * `np.argmax` of a non-empty vector: an index of a maximal element, the
   * lowest one when several are maximal.
   */
  function ArgMax(v: seq<real>): (k: nat)
    requires |v| > 0
    ensures k < |v|
    ensures forall j :: 0 <= j < |v| ==> v[j] <= v[k]
    ensures forall j :: 0 <= j < k ==> v[j] < v[k]
  {
    if |v| == 1 then 0
    else
      var k := ArgMax(v[..|v| - 1]);
      if v[|v| - 1] > v[k] then |v| - 1 else k
  }

  /** Number of positions of `s` holding `x` (`np.sum(s == x)`). */
  function Count<T(==)>(s: seq<T>, x: T): (n: nat)
    ensures n <= |s|
    ensures n == 0 <==> x !in s
  {
    if s == [] then 0
    else (if s[0] == x then 1 else 0) + Count(s[1..], x)
  }

  /** An index that is maximal and first among the maxima is the arg-max. */
  lemma ArgMaxUnique(v: seq<real>, k: nat)
    requires k < |v|
    requires forall j :: 0 <= j < |v| ==> v[j] <= v[k]
    requires forall j :: 0 <= j < k ==> v[j] < v[k]
    ensures ArgMax(v) == k
  {
  }

  /** Raising the winning value, and nothing else, keeps the arg-max. */
  lemma RaiseKeepsArgMax(v: seq<real>, r: seq<real>, k: nat)
    requires |r| == |v| > 0 && k < |v|
    requires ArgMax(v) == k && v[k] <= r[k]
    requires forall j :: 0 <= j < |v| && j != k ==> r[j] == v[j]
    ensures ArgMax(r) == k
  {
    ArgMaxUnique(r, k);
  }

  /** Counting from the end: the count of a prefix plus the last element. */
  lemma {:induction false} CountSnoc<T>(s: seq<T>, x: T)
    requires s != []
    ensures Count(s, x) == Count(s[..|s| - 1], x) + (if s[|s| - 1] == x then 1 else 0)
  {
    if |s| > 1 {
      CountSnoc(s[1..], x);
      assert s[1..][..|s[1..]| - 1] == s[..|s| - 1][1..];
    }
  }

  /** The count is the number of positions holding `x`. */
  lemma {:induction false} CountAsSet(s: seq<int>, x: int)
    ensures Count(s, x) == |set i | 0 <= i < |s| && s[i] == x|
  {
    if s != [] {
      var init := s[..|s| - 1];
      CountSnoc(s, x);
      CountAsSet(init, x);
      var a := set i | 0 <= i < |init| && init[i] == x;
      var b := set i | 0 <= i < |s| && s[i] == x;
      if s[|s| - 1] == x {
        assert b == a + {|s| - 1};
      } else {
        assert b == a;
      }
    }
  }

  /** If `b` holds `y` only where `a` holds `x`, `b` has no more `y`s than `a` has `x`s. */
  lemma {:induction false} CountMonotone<T>(a: seq<T>, x: T, b: seq<T>, y: T)
    requires |a| == |b|
    requires forall i :: 0 <= i < |b| && b[i] == y ==> a[i] == x
    ensures Count(b, y) <= Count(a, x)
  {
    if b != [] {
      CountMonotone(a[1..], x, b[1..], y);
    }
  }
}

=== FILE: select_pseudo.dfy ===
/**
 * Pseudo-label selection (src/preprocess/select_pseudo.py): every
 * probability map is given a confidence score, the cases are ranked by
 * score, highest first, and the first `TOP_K` are selected.
 */
module SelectPseudo {
  import opened Wrappers
  import opened Strings
  import opened Sorting
  import opened Reduce

  /** Line 14. */
  const TOP_K: nat := 5

  /** The myocardium size below which the score is halved (line 54). */
  const MIN_MYOCARDIUM: nat := 5000

  const MYOCARDIUM: nat := 1

  /**
   * The `probabilities` array of one `.npz` file, of shape (C, Z, Y, X),
   * flattened voxel by voxel: `voxels[v]` holds the C class probabilities.
   */
  datatype ProbMap = ProbMap(classes: nat, voxels: seq<seq<real>>) {
    ghost predicate Valid() {
      forall v :: 0 <= v < |voxels| ==> |voxels[v]| == classes
    }
  }

  /** Every probability lies in [0, 1]. */
  ghost predicate Probabilities(p: ProbMap) {
    forall v, c :: 0 <= v < |p.voxels| && 0 <= c < |p.voxels[v]| ==> 0.0 <= p.voxels[v][c] <= 1.0
  }

  /** No probability is negative. */
  ghost predicate NonNegative(p: ProbMap) {
    forall v, c :: 0 <= v < |p.voxels| && 0 <= c < |p.voxels[v]| ==> 0.0 <= p.voxels[v][c]
  }

  /** `seg[v] > 0`: the winning class of voxel `v` is not background. */
  predicate IsForeground(p: ProbMap, v: nat)
    requires p.Valid() && p.classes > 0 && v < |p.voxels|
  {
    ArgMax(p.voxels[v]) > 0
  }

  /** `data.max(axis=0)` at voxel `v`. */
  function MaxProb(p: ProbMap, v: nat): (m: real)
    requires p.Valid() && p.classes > 0 && v < |p.voxels|
    ensures m in p.voxels[v]
    ensures forall c :: 0 <= c < p.classes ==> p.voxels[v][c] <= m
  {
    p.voxels[v][ArgMax(p.voxels[v])]
  }

  ghost predicate HasForeground(p: ProbMap)
    requires p.Valid() && p.classes > 0
  {
    exists v :: 0 <= v < |p.voxels| && IsForeground(p, v)
  }

  /** The foreground voxels among the first `n`, in increasing order. */
  function ForegroundVoxels(p: ProbMap, n: nat): (r: seq<nat>)
    requires p.Valid() && p.classes > 0 && n <= |p.voxels|
    ensures forall i, j :: 0 <= i < j < |r| ==> r[i] < r[j]
    ensures forall i :: 0 <= i < |r| ==> r[i] < n && IsForeground(p, r[i])
    ensures forall v :: 0 <= v < n && IsForeground(p, v) ==> v in r
  {
    if n == 0 then []
    else ForegroundVoxels(p, n - 1) + (if IsForeground(p, n - 1) then [n - 1] else [])
  }

  /**
   * `max_probs[foreground_mask]` restricted to the first `n` voxels: one
   * winning probability per foreground voxel, in voxel order.
   */
  function ForegroundProbsUpTo(p: ProbMap, n: nat): (r: seq<real>)
    requires p.Valid() && p.classes > 0 && n <= |p.voxels|
    ensures |r| == |ForegroundVoxels(p, n)|
    ensures forall i :: 0 <= i < |r| ==> r[i] == MaxProb(p, ForegroundVoxels(p, n)[i])
  {
    if n == 0 then []
    else
      var r := ForegroundProbsUpTo(p, n - 1);
      if IsForeground(p, n - 1) then r + [MaxProb(p, n - 1)] else r
  }

  /** `max_probs[foreground_mask]`: one winning probability per foreground voxel, in voxel order. */
  function ForegroundProbs(p: ProbMap): (r: seq<real>)
    requires p.Valid() && p.classes > 0
    ensures |r| == |ForegroundVoxels(p, |p.voxels|)|
    ensures forall i :: 0 <= i < |r| ==> r[i] == MaxProb(p, ForegroundVoxels(p, |p.voxels|)[i])
    ensures r == [] <==> !HasForeground(p)
  {
    ForegroundVoxelsEmpty(p);
    ForegroundProbsUpTo(p, |p.voxels|)
  }

  /** Every element of `max_probs[foreground_mask]` is the winning probability of some foreground voxel. */
  lemma ForegroundProbsWinners(p: ProbMap)
    requires p.Valid() && p.classes > 0
    ensures forall i :: 0 <= i < |ForegroundProbs(p)| ==>
      exists v :: 0 <= v < |p.voxels| && IsForeground(p, v) && ForegroundProbs(p)[i] == MaxProb(p, v)
  {
    var probs, voxels := ForegroundProbs(p), ForegroundVoxels(p, |p.voxels|);
    forall i | 0 <= i < |probs|
      ensures exists v :: 0 <= v < |p.voxels| && IsForeground(p, v) && probs[i] == MaxProb(p, v)
    {
      var v := voxels[i];
      assert 0 <= v < |p.voxels| && IsForeground(p, v) && probs[i] == MaxProb(p, v);
    }
  }

  /** A map has foreground voxels exactly when it has foreground. */
  lemma ForegroundVoxelsEmpty(p: ProbMap)
    requires p.Valid() && p.classes > 0
    ensures ForegroundVoxels(p, |p.voxels|) == [] <==> !HasForeground(p)
  {
    var voxels := ForegroundVoxels(p, |p.voxels|);
    if HasForeground(p) {
      var v :| 0 <= v < |p.voxels| && IsForeground(p, v);
      assert v in voxels;
    }
    if voxels != [] {
      assert IsForeground(p, voxels[0]);
    }
  }

  /** `np.argmax(data, axis=0)`, voxel by voxel. */
  function Seg(p: ProbMap): (seg: seq<nat>)
    requires p.Valid() && p.classes > 0
    ensures |seg| == |p.voxels|
    ensures forall v :: 0 <= v < |seg| ==> seg[v] == ArgMax(p.voxels[v])
  {
    seq(|p.voxels|, v requires 0 <= v < |p.voxels| => ArgMax(p.voxels[v]))
  }

  /** `np.sum(seg == 1)`: the number of voxels whose winning class is myocardium. */
  function MyocardiumCount(p: ProbMap): (n: nat)
    requires p.Valid() && p.classes > 0
    ensures n <= |p.voxels|
    ensures n == |set v: int | 0 <= v < |p.voxels| && ArgMax(p.voxels[v]) == MYOCARDIUM|
    ensures n == 0 <==> forall v :: 0 <= v < |p.voxels| ==> ArgMax(p.voxels[v]) != MYOCARDIUM
  {
    MyocardiumVoxels(p);
    Count<int>(Seg(p), MYOCARDIUM)
  }

  /** The voxels counted in `Seg(p)` are those whose winning class is myocardium. */
  lemma MyocardiumVoxels(p: ProbMap)
    requires p.Valid() && p.classes > 0
    ensures Count<int>(Seg(p), MYOCARDIUM) == |set v: int | 0 <= v < |p.voxels| && ArgMax(p.voxels[v]) == MYOCARDIUM|
  {
    var seg: seq<int> := Seg(p);
    CountAsSet(seg, MYOCARDIUM);
    var counted := set v: int | 0 <= v < |seg| && seg[v] == MYOCARDIUM;
    var winners := set v: int | 0 <= v < |p.voxels| && ArgMax(p.voxels[v]) == MYOCARDIUM;
    forall v ensures v in counted <==> v in winners {
      if 0 <= v < |seg| {
        assert seg[v] == ArgMax(p.voxels[v]);
      }
    }
    assert counted == winners;
    assert Count(seg, MYOCARDIUM) == |counted|;
    assert winners == set v: int | 0 <= v < |p.voxels| && ArgMax(p.voxels[v]) == MYOCARDIUM;
  }

  function Sum(xs: seq<real>): real {
    if xs == [] then 0.0 else Sum(xs[..|xs| - 1]) + xs[|xs| - 1]
  }

  /** `np.mean` of a non-empty vector. */
  function Mean(xs: seq<real>): real
    requires xs != []
  {
    Sum(xs) / (|xs| as real)
  }

  /**
   * `calculate_confidence_score` (lines 24-61). `loaded` is `None` when
   * `np.load` or the `probabilities` key fails; an arg-max over zero classes
   * raises as well. Both land in the `except` branch, which scores 0.0.
   */
  function ConfidenceScore(loaded: Option<ProbMap>): (score: real)
    requires loaded.Some? ==> loaded.value.Valid()
    ensures loaded.None? ==> score == 0.0
    ensures loaded.Some? && loaded.value.classes == 0 ==> score == 0.0
    ensures loaded.Some? && loaded.value.classes > 0 && !HasForeground(loaded.value) ==> score == 0.0
    ensures loaded.Some? && loaded.value.classes > 0 && HasForeground(loaded.value) ==>
      score == if MyocardiumCount(loaded.value) < MIN_MYOCARDIUM
               then Mean(ForegroundProbs(loaded.value)) / 2.0
               else Mean(ForegroundProbs(loaded.value))
  {
    match loaded
    case None => 0.0
    case Some(p) => if p.classes == 0 then 0.0 else ForegroundScore(p)
  }

  /** The score of a loaded map with at least one class (lines 34-58). */
  function ForegroundScore(p: ProbMap): (score: real)
    requires p.Valid() && p.classes > 0
    ensures !HasForeground(p) ==> score == 0.0
    ensures HasForeground(p) ==>
      score == if MyocardiumCount(p) < MIN_MYOCARDIUM then Mean(ForegroundProbs(p)) / 2.0 else Mean(ForegroundProbs(p))
  {
    var probs := ForegroundProbs(p);
    if probs == [] then 0.0
    else
      var meanConfidence := Mean(probs);
      assert meanConfidence * 0.5 == meanConfidence / 2.0;
      if MyocardiumCount(p) < MIN_MYOCARDIUM then meanConfidence * 0.5 else meanConfidence
  }

  lemma {:induction false} SumBounds(xs: seq<real>)
    requires forall i :: 0 <= i < |xs| ==> 0.0 <= xs[i] <= 1.0
    ensures 0.0 <= Sum(xs) <= |xs| as real
  {
    if xs != [] {
      SumBounds(xs[..|xs| - 1]);
    }
  }

  lemma {:induction false} SumPositive(xs: seq<real>)
    requires xs != []
    requires forall i :: 0 <= i < |xs| ==> 0.0 < xs[i]
    ensures 0.0 < Sum(xs)
  {
    if |xs| > 1 {
      SumPositive(xs[..|xs| - 1]);
    }
  }

  /** The mean of values in [0, 1] lies in [0, 1]. */
  lemma MeanBounds(xs: seq<real>)
    requires xs != []
    requires forall i :: 0 <= i < |xs| ==> 0.0 <= xs[i] <= 1.0
    ensures 0.0 <= Mean(xs) <= 1.0
  {
    SumBounds(xs);
    var n := |xs| as real;
    assert Sum(xs) / n <= n / n;
  }

  /** With probabilities in [0, 1], the score lies in [0, 1]. */
  lemma ScoreInUnitInterval(loaded: Option<ProbMap>)
    requires loaded.Some? ==> loaded.value.Valid() && Probabilities(loaded.value)
    ensures 0.0 <= ConfidenceScore(loaded) <= 1.0
  {
    if loaded.Some? && loaded.value.classes > 0 && HasForeground(loaded.value) {
      var p := loaded.value;
      ForegroundProbsBounded(p);
      MeanBounds(ForegroundProbs(p));
    }
  }

  /** Each foreground winning probability lies in [0, 1]. */
  lemma ForegroundProbsBounded(p: ProbMap)
    requires p.Valid() && p.classes > 0 && Probabilities(p)
    ensures forall i :: 0 <= i < |ForegroundProbs(p)| ==> 0.0 <= ForegroundProbs(p)[i] <= 1.0
  {
    var probs, voxels := ForegroundProbs(p), ForegroundVoxels(p, |p.voxels|);
    forall i | 0 <= i < |probs|
      ensures 0.0 <= probs[i] <= 1.0
    {
      var v := voxels[i];
      assert probs[i] == MaxProb(p, v) == p.voxels[v][ArgMax(p.voxels[v])];
    }
  }

  /**
   * With non-negative probabilities, a loaded map scores above 0 exactly when
   * some voxel's winning class is not background: such a voxel beats class 0
   * strictly, so its winning probability is positive.
   */
  lemma ScorePositiveIffForeground(p: ProbMap)
    requires p.Valid() && p.classes > 0 && NonNegative(p)
    ensures ConfidenceScore(Some(p)) > 0.0 <==> HasForeground(p)
  {
    var score := ConfidenceScore(Some(p));
    if HasForeground(p) {
      MeanForegroundPositive(p);
      var m := Mean(ForegroundProbs(p));
      assert score == m / 2.0 || score == m;
      assert 0.0 < m / 2.0;
    } else {
      assert score == 0.0;
    }
  }

  /** With foreground, the mean winning probability is positive. */
  lemma MeanForegroundPositive(p: ProbMap)
    requires p.Valid() && p.classes > 0 && NonNegative(p) && HasForeground(p)
    ensures 0.0 < Mean(ForegroundProbs(p))
  {
    ForegroundProbsPositive(p);
    MeanPositive(ForegroundProbs(p));
  }

  /** Each foreground winning probability beats background, hence is positive. */
  lemma ForegroundProbsPositive(p: ProbMap)
    requires p.Valid() && p.classes > 0 && NonNegative(p)
    ensures forall i :: 0 <= i < |ForegroundProbs(p)| ==> 0.0 < ForegroundProbs(p)[i]
  {
    var probs, voxels := ForegroundProbs(p), ForegroundVoxels(p, |p.voxels|);
    forall i | 0 <= i < |probs|
      ensures 0.0 < probs[i]
    {
      ForegroundWinnerPositive(p, voxels[i]);
    }
  }

  /** A foreground voxel's winner beats the non-negative background value, so it is positive. */
  lemma ForegroundWinnerPositive(p: ProbMap, v: nat)
    requires p.Valid() && p.classes > 0 && NonNegative(p)
    requires v < |p.voxels| && IsForeground(p, v)
    ensures 0.0 < MaxProb(p, v)
  {
    var w := p.voxels[v];
    assert 0.0 <= w[0] < w[ArgMax(w)];
  }

  /** The mean of positive values is positive. */
  lemma MeanPositive(xs: seq<real>)
    requires xs != []
    requires forall i :: 0 <= i < |xs| ==> 0.0 < xs[i]
    ensures 0.0 < Mean(xs)
  {
    SumPositive(xs);
    var n := |xs| as real;
    assert Sum(xs) / n > 0.0;
  }

  // ---------------------------------------------------------------------
  // Ranking and selection

  /** One `(score, case_id)` pair of the `scores` list. */
  datatype Scored = Scored(score: real, caseId: string)

  /** `sort(key=lambda x: x[0], reverse=True)`: a higher score comes first. */
  predicate Higher(a: Scored, b: Scored) {
    a.score > b.score
  }

  /** `filename.replace('.npz', '')` (line 77). */
  function CaseId(filename: string): string {
    ReplaceAll(filename, ".npz", "")
  }

  /** The case id of `<c>.npz` is `c` for a dot-free `c`. */
  lemma CaseIdOfNpz(c: string)
    requires '.' !in c
    ensures CaseId(c + ".npz") == c
  {
    ReplaceDottedSuffix(c, ".npz", "", 0);
    assert c + "" == c;
  }

  /** The map stored in `filename`, or `None` when it cannot be loaded. */
  function Load(store: map<string, ProbMap>, filename: string): Option<ProbMap> {
    if filename in store then Some(store[filename]) else None
  }

  ghost predicate WellFormed(store: map<string, ProbMap>) {
    forall f :: f in store ==> store[f].Valid()
  }

  /** Lines 72-78 for one file. */
  function Score(store: map<string, ProbMap>, filename: string): Scored
    requires WellFormed(store)
  {
    Scored(ConfidenceScore(Load(store, filename)), CaseId(filename))
  }

  /** The `scores` list after the loop of lines 71-78. */
  function ScoreAll(files: seq<string>, store: map<string, ProbMap>): (r: seq<Scored>)
    requires WellFormed(store)
    ensures |r| == |files|
    ensures forall i :: 0 <= i < |files| ==> r[i] == Score(store, files[i])
  {
    seq(|files|, i requires 0 <= i < |files| => Score(store, files[i]))
  }

  /** The entries of `xs` whose score is `s`, in their order in `xs`. */
  function WithScore(xs: seq<Scored>, s: real): (r: seq<Scored>)
    ensures forall x :: x in r <==> x in xs && x.score == s
  {
    if xs == [] then []
    else (if xs[0].score == s then [xs[0]] else []) + WithScore(xs[1..], s)
  }

  lemma HigherIsStrictWeakOrder()
    ensures StrictWeakOrder(Higher)
  {
  }

  lemma {:induction false} EquivalentsAreWithScore(xs: seq<Scored>, s: real)
    ensures Equivalents(xs, Scored(s, []), Higher) == WithScore(xs, s)
  {
    if xs != [] {
      EquivalentsAreWithScore(xs[1..], s);
    }
  }

  /**
   * Stability of the sort: entries of equal score keep the order in which
   * their files were listed.
   */
  lemma RankingStable(scores: seq<Scored>, s: real)
    ensures WithScore(SortBy(scores, Higher), s) == WithScore(scores, s)
  {
    HigherIsStrictWeakOrder();
    SortByStable(scores, Scored(s, []), Higher);
    EquivalentsAreWithScore(SortBy(scores, Higher), s);
    EquivalentsAreWithScore(scores, s);
  }

  function Min(a: nat, b: nat): nat {
    if a <= b then a else b
  }

  /** Lines 66-78: `scores` gets one entry per file, in listing order. */
  method ScoreFiles(files: seq<string>, store: map<string, ProbMap>) returns (scores: seq<Scored>)
    requires WellFormed(store)
    ensures scores == ScoreAll(files, store)
  {
    scores := [];
    for i := 0 to |files|
      invariant |scores| == i
      invariant forall j :: 0 <= j < i ==> scores[j] == Score(store, files[j])
    {
      var filename := files[i];
      var score := ConfidenceScore(Load(store, filename));
      var caseId := ReplaceAll(filename, ".npz", "");
      scores := scores + [Scored(score, caseId)];
    }
  }

  /** Lines 90-94: the case ids of the first `min(TOP_K, len(scores))` entries. */
  method TakeTop(ranked: seq<Scored>) returns (selected: seq<string>)
    ensures |selected| == Min(TOP_K, |ranked|)
    ensures forall i :: 0 <= i < |selected| ==> selected[i] == ranked[i].caseId
  {
    selected := [];
    for i := 0 to Min(TOP_K, |ranked|)
      invariant |selected| == i
      invariant forall j :: 0 <= j < i ==> selected[j] == ranked[j].caseId
    {
      selected := selected + [ranked[i].caseId];
    }
  }

  /**
   * Lines 66-94. `listing` is `os.listdir(npz_folder)` and `store` holds the
   * maps of the files that load. `ranked` is `scores` after the sort and
   * `selected` is `selected_cases`.
   */
  method SelectCases(listing: seq<string>, store: map<string, ProbMap>)
    returns (ranked: seq<Scored>, selected: seq<string>)
    requires WellFormed(store)
    ensures ranked == SortBy(ScoreAll(WithSuffix(listing, ".npz"), store), Higher)
    ensures |ranked| == |WithSuffix(listing, ".npz")|
    ensures multiset(ranked) == multiset(ScoreAll(WithSuffix(listing, ".npz"), store))
    ensures forall i, j :: 0 <= i < j < |ranked| ==> ranked[i].score >= ranked[j].score
    ensures |selected| == Min(TOP_K, |WithSuffix(listing, ".npz")|)
    ensures forall i :: 0 <= i < |selected| ==> selected[i] == ranked[i].caseId
    ensures forall i, j :: 0 <= i < |selected| <= j < |ranked| ==> ranked[i].score >= ranked[j].score
  {
    var files := WithSuffix(listing, ".npz");
    var scores := ScoreFiles(files, store);
    ranked := SortBy(scores, Higher);
    assert |ranked| == |multiset(ranked)| == |multiset(scores)| == |files|;
    HigherIsStrictWeakOrder();
    SortBySorted(scores, Higher);
    selected := TakeTop(ranked);
  }
}

=== FILE: sorting.dfy ===
/**
 * Python's `sorted(xs)` and `list.sort(key=..., reverse=...)` are stable
 * sorts. Their result is the one stable insertion sort gives: sorted, a
 * permutation of the input, and elements that compare equal keep their
 * original relative order. `before(a, b)` means "a must come strictly
 * before b".
 */
module Sorting {

  /** `before` is asymmetric and "not before" is transitive. */
  ghost predicate StrictWeakOrder<T(!new)>(before: (T, T) -> bool) {
    && (forall a, b :: before(a, b) ==> !before(b, a))
    && (forall a, b, c :: !before(a, b) && !before(b, c) ==> !before(a, c))
  }

  /** No later element must come before an earlier one. */
  ghost predicate SortedBy<T>(s: seq<T>, before: (T, T) -> bool) {
    forall i, j :: 0 <= i < j < |s| ==> !before(s[j], s[i])
  }

  /** Inserts `x` after the leading elements that come strictly before it. */
  function Insert<T>(x: T, ys: seq<T>, before: (T, T) -> bool): (r: seq<T>)
    ensures multiset(r) == multiset(ys) + multiset{x}
  {
    if ys == [] || !before(ys[0], x) then [x] + ys
    else
      assert ys == [ys[0]] + ys[1..];
      [ys[0]] + Insert(x, ys[1..], before)
  }

  function SortBy<T>(xs: seq<T>, before: (T, T) -> bool): (r: seq<T>)
    ensures multiset(r) == multiset(xs)
  {
    if xs == [] then []
    else
      assert xs == [xs[0]] + xs[1..];
      Insert(xs[0], SortBy(xs[1..], before), before)
  }

  /** The elements of `s` that compare equal to `e`, in their order in `s`. */
  function Equivalents<T>(s: seq<T>, e: T, before: (T, T) -> bool): seq<T> {
    if s == [] then []
    else (if Equivalent(s[0], e, before) then [s[0]] else []) + Equivalents(s[1..], e, before)
  }

  lemma {:induction false} InsertSorted<T(!new)>(x: T, ys: seq<T>, before: (T, T) -> bool)
    requires StrictWeakOrder(before)
    requires SortedBy(ys, before)
    ensures SortedBy(Insert(x, ys, before), before)
  {
    var r := Insert(x, ys, before);
    if ys == [] || !before(ys[0], x) {
      forall i, j | 0 <= i < j < |r|
        ensures !before(r[j], r[i])
      {
        if i == 0 && j > 1 {
          assert !before(ys[j - 1], ys[0]);
        }
      }
    } else {
      var rest := Insert(x, ys[1..], before);
      InsertSorted(x, ys[1..], before);
      forall i, j | 0 <= i < j < |r|
        ensures !before(r[j], r[i])
      {
        if i == 0 {
          assert r[j] == rest[j - 1];
          assert rest[j - 1] in multiset(rest);
          if rest[j - 1] != x {
            assert rest[j - 1] in ys[1..];
            var k :| 0 <= k < |ys[1..]| && ys[1..][k] == rest[j - 1];
            assert !before(ys[k + 1], ys[0]);
          }
        }
      }
    }
  }

  lemma {:induction false} SortBySorted<T(!new)>(xs: seq<T>, before: (T, T) -> bool)
    requires StrictWeakOrder(before)
    ensures SortedBy(SortBy(xs, before), before)
  {
    if xs != [] {
      SortBySorted(xs[1..], before);
      InsertSorted(xs[0], SortBy(xs[1..], before), before);
    }
  }

  /** Equal to `e` under `before`: neither comes strictly before the other. */
  predicate Equivalent<T>(a: T, e: T, before: (T, T) -> bool) {
    !before(a, e) && !before(e, a)
  }

  /** Two elements equivalent to the same `e` are not strictly ordered. */
  lemma NotBothEquivalent<T(!new)>(x: T, y: T, e: T, before: (T, T) -> bool)
    requires StrictWeakOrder(before)
    requires before(y, x)
    ensures !(Equivalent(x, e, before) && Equivalent(y, e, before))
  {
  }

  lemma {:induction false} InsertKeepsEquivalentsOrder<T(!new)>(x: T, ys: seq<T>, e: T, before: (T, T) -> bool)
    requires forall y :: before(y, x) ==> !(Equivalent(x, e, before) && Equivalent(y, e, before))
    ensures Equivalents(Insert(x, ys, before), e, before) == Equivalents([x] + ys, e, before)
  {
    if ys != [] && before(ys[0], x) {
      var y, rest := ys[0], ys[1..];
      InsertKeepsEquivalentsOrder(x, rest, e, before);
      assert ([y] + Insert(x, rest, before))[1..] == Insert(x, rest, before);
      assert ([x] + ys)[1..] == ys;
      assert ([x] + rest)[1..] == rest;
    }
  }

  /** Stability: elements equal to `e` leave the sort in their input order. */
  lemma {:induction false} SortByStable<T(!new)>(xs: seq<T>, e: T, before: (T, T) -> bool)
    requires StrictWeakOrder(before)
    ensures Equivalents(SortBy(xs, before), e, before) == Equivalents(xs, e, before)
  {
    if xs != [] {
      var sortedRest := SortBy(xs[1..], before);
      forall y | before(y, xs[0])
        ensures !(Equivalent(xs[0], e, before) && Equivalent(y, e, before))
      {
        NotBothEquivalent(xs[0], y, e, before);
      }
      InsertKeepsEquivalentsOrder(xs[0], sortedRest, e, before);
      assert ([xs[0]] + sortedRest)[1..] == sortedRest;
      SortByStable(xs[1..], e, before);
    }
  }
}

=== FILE: strings.dfy ===
/**
 * The few Python string operations the scripts rely on: `str.endswith`,
 * `pat in s`, `str.replace` (every non-overlapping occurrence, left to right),
 * `s.split(c)[0]` and the code-point order used by `sorted` on file names.
 */
module Strings {

  /** Python's `s.endswith(suffix)`. */
  predicate EndsWith(s: string, suffix: string) {
    |suffix| <= |s| && s[|s| - |suffix|..] == suffix
  }

  /** The list comprehension `[f for f in names if f.endswith(suffix)]`. */
  function WithSuffix(names: seq<string>, suffix: string): (r: seq<string>)
    ensures |r| <= |names|
    ensures forall x :: x in r <==> x in names && EndsWith(x, suffix)
  {
    if names == [] then []
    else
      assert names == [names[0]] + names[1..];
      (if EndsWith(names[0], suffix) then [names[0]] else []) + WithSuffix(names[1..], suffix)
  }

  /** Each name with the suffix is kept as often as it is listed; the others never. */
  lemma {:induction false} WithSuffixMultiplicity(names: seq<string>, suffix: string)
    ensures forall x :: multiset(WithSuffix(names, suffix))[x] == if EndsWith(x, suffix) then multiset(names)[x] else 0
  {
    if names != [] {
      WithSuffixMultiplicity(names[1..], suffix);
      assert names == [names[0]] + names[1..];
      assert multiset(names) == multiset{names[0]} + multiset(names[1..]);
    }
  }

  /**
   * The comprehension keeps the listing order: a name appended to the
   * listing is appended to the result exactly when it has the suffix.
   */
  lemma {:induction false} WithSuffixAppend(names: seq<string>, n: string, suffix: string)
    ensures WithSuffix(names + [n], suffix) == WithSuffix(names, suffix) + (if EndsWith(n, suffix) then [n] else [])
  {
    if names != [] {
      var all, rest := names + [n], names[1..];
      var head := if EndsWith(names[0], suffix) then [names[0]] else [];
      var tail := if EndsWith(n, suffix) then [n] else [];
      assert all[0] == names[0] && all[1..] == rest + [n];
      WithSuffixAppend(rest, n, suffix);
      calc {
        WithSuffix(all, suffix);
        head + WithSuffix(rest + [n], suffix);
        head + (WithSuffix(rest, suffix) + tail);
        { AppendAssociative(head, WithSuffix(rest, suffix), tail); }
        (head + WithSuffix(rest, suffix)) + tail;
        WithSuffix(names, suffix) + tail;
      }
    }
  }

  lemma AppendAssociative<T>(a: seq<T>, b: seq<T>, c: seq<T>)
    ensures a + (b + c) == (a + b) + c
  {
  }

  /** `pat` occurs in `s` starting at position `i`. */
  predicate MatchAt(s: string, pat: string, i: nat) {
    i + |pat| <= |s| && s[i..i + |pat|] == pat
  }

  /** Python's `pat in s`. */
  predicate Contains(s: string, pat: string) {
    exists i | 0 <= i <= |s| :: MatchAt(s, pat, i)
  }

  /** Python's `s.replace(pat, rep)` for a non-empty `pat`. */
  function ReplaceAll(s: string, pat: string, rep: string): string
    requires pat != []
    decreases |s|
  {
    if |s| < |pat| then s
    else if s[..|pat|] == pat then rep + ReplaceAll(s[|pat|..], pat, rep)
    else [s[0]] + ReplaceAll(s[1..], pat, rep)
  }

  /** Python's `s.split(c)[0]`: the text before the first `c`, or all of `s`. */
  function BeforeFirst(s: string, c: char): (r: string)
    ensures c !in r
    ensures r <= s
    ensures |r| < |s| ==> s[|r|] == c
  {
    if s == [] || s[0] == c then []
    else [s[0]] + BeforeFirst(s[1..], c)
  }

  /** Python's `a < b` on `str`: code-point lexicographic order. */
  predicate LexLess(a: string, b: string) {
    if a == [] then b != []
    else if b == [] then false
    else a[0] < b[0] || (a[0] == b[0] && LexLess(a[1..], b[1..]))
  }

  // ---------------------------------------------------------------------
  // str.replace

  /** Replacing a pattern that does not occur changes nothing. */
  lemma {:induction false} ReplaceAbsent(s: string, pat: string, rep: string)
    requires pat != []
    requires !Contains(s, pat)
    ensures ReplaceAll(s, pat, rep) == s
  {
    if |s| >= |pat| {
      assert !MatchAt(s, pat, 0);
      assert s[..|pat|] != pat;
      forall i | 0 <= i <= |s[1..]|
        ensures !MatchAt(s[1..], pat, i)
      {
        assert !MatchAt(s, pat, i + 1);
      }
      ReplaceAbsent(s[1..], pat, rep);
      assert s == [s[0]] + s[1..];
    }
  }

  /**
   * When the only occurrence of `pat` in `p + pat` is the trailing one,
   * replacing it rewrites exactly that suffix.
   */
  lemma {:induction false} ReplaceSuffix(p: string, pat: string, rep: string)
    requires pat != []
    requires forall i :: 0 <= i < |p| ==> !MatchAt(p + pat, pat, i)
    ensures ReplaceAll(p + pat, pat, rep) == p + rep
  {
    var s := p + pat;
    if p == [] {
      assert s == pat && s[..|pat|] == pat && s[|pat|..] == [];
    } else {
      var q := p[1..];
      assert s[..|pat|] != pat by {
        assert !MatchAt(s, pat, 0);
      }
      assert s[1..] == q + pat;
      assert ReplaceAll(s, pat, rep) == [p[0]] + ReplaceAll(q + pat, pat, rep);
      forall i | 0 <= i < |q|
        ensures !MatchAt(q + pat, pat, i)
      {
        assert !MatchAt(s, pat, i + 1);
        assert (q + pat)[i..i + |pat|] == s[i + 1..i + 1 + |pat|];
      }
      ReplaceSuffix(q, pat, rep);
      assert p + rep == [p[0]] + (q + rep);
    }
  }

  /**
   * If some character `pat[j]` of the pattern occurs neither in `p` nor
   * earlier in the pattern, then `pat` cannot start inside `p` in `p + pat`.
   */
  lemma NoEarlyMatch(p: string, pat: string, j: nat)
    requires j < |pat|
    requires pat[j] !in p && pat[j] !in pat[..j]
    ensures forall i :: 0 <= i < |p| ==> !MatchAt(p + pat, pat, i)
  {
    forall i | 0 <= i < |p|
      ensures !MatchAt(p + pat, pat, i)
    {
      var s := p + pat;
      if i + j < |p| {
        assert s[i + j] == p[i + j];
      } else {
        assert s[i + j] == pat[i + j - |p|] == pat[..j][i + j - |p|];
      }
    }
  }

  /**
   * The rename used throughout the scripts: with a dot-free stem `c`,
   * `(c + pat).replace(pat, rep) == c + rep` for any pattern whose first
   * dot is preceded only by non-dot characters.
   */
  lemma ReplaceDottedSuffix(c: string, pat: string, rep: string, j: nat)
    requires j < |pat| && pat[j] == '.' && '.' !in pat[..j]
    requires '.' !in c
    ensures ReplaceAll(c + pat, pat, rep) == c + rep
  {
    NoEarlyMatch(c, pat, j);
    ReplaceSuffix(c, pat, rep);
  }

  // ---------------------------------------------------------------------
  // split

  /** The stem of `c + rest` up to the first dot is `c` when `rest` starts with a dot. */
  lemma {:induction false} BeforeFirstOfStem(c: string, rest: string)
    requires '.' !in c
    requires rest != [] && rest[0] == '.'
    ensures BeforeFirst(c + rest, '.') == c
  {
    if c != [] {
      assert (c + rest)[1..] == c[1..] + rest;
      BeforeFirstOfStem(c[1..], rest);
      assert c == [c[0]] + c[1..];
    }
  }

  // ---------------------------------------------------------------------
  // ordering

  lemma {:induction false} LexLessIrreflexive(a: string)
    ensures !LexLess(a, a)
  {
    if a != [] {
      LexLessIrreflexive(a[1..]);
    }
  }

  lemma {:induction false} LexLessTransitive(a: string, b: string, c: string)
    requires LexLess(a, b) && LexLess(b, c)
    ensures LexLess(a, c)
  {
    if a != [] && b != [] && c != [] && a[0] == b[0] == c[0] {
      LexLessTransitive(a[1..], b[1..], c[1..]);
    }
  }

  lemma {:induction false} LexLessTotal(a: string, b: string)
    requires a != b
    ensures LexLess(a, b) || LexLess(b, a)
  {
    if a != [] && b != [] && a[0] == b[0] {
      assert a == [a[0]] + a[1..] && b == [b[0]] + b[1..];
      LexLessTotal(a[1..], b[1..]);
    }
  }

  /** `LexLess` is asymmetric and its negation is transitive: a strict weak order. */
  lemma LexLessIsStrictWeakOrder()
    ensures forall a, b :: LexLess(a, b) ==> !LexLess(b, a)
    ensures forall a, b, c :: !LexLess(a, b) && !LexLess(b, c) ==> !LexLess(a, c)
  {
    forall a, b | LexLess(a, b)
      ensures !LexLess(b, a)
    {
      if LexLess(b, a) {
        LexLessTransitive(a, b, a);
        LexLessIrreflexive(a);
      }
    }
    forall a, b, c | !LexLess(a, b) && !LexLess(b, c)
      ensures !LexLess(a, c)
    {
      if LexLess(a, c) {
        if a == b {
        } else if b == c {
        } else {
          LexLessTotal(a, b);
          LexLessTotal(b, c);
          LexLessTransitive(c, b, a);
          LexLessTransitive(a, c, a);
          LexLessIrreflexive(a);
        }
      }
    }
  }
}

=== FILE: volumes.dfy ===
/**
 * Three-dimensional volumes with an explicit shape, as numpy arrays of
 * rank 3: `cells[i][j][k]` is the voxel at index (i, j, k). The shape is
 * kept beside the cells so that an empty axis does not lose the others.
 */
module Volumes {

  datatype Shape = Shape(d0: nat, d1: nat, d2: nat) {

    /** The shape after `transpose(2, 1, 0)`. */
    function Reversed(): Shape {
      Shape(d2, d1, d0)
    }

    predicate Holds(i: int, j: int, k: int) {
      0 <= i < d0 && 0 <= j < d1 && 0 <= k < d2
    }
  }

  datatype Vol<T> = Vol(shape: Shape, cells: seq<seq<seq<T>>>) {

    /** The nested sequences are rectangular and have the recorded shape. */
    ghost predicate Valid() {
      && |cells| == shape.d0
      && (forall i :: 0 <= i < shape.d0 ==> |cells[i]| == shape.d1)
      && (forall i, j :: 0 <= i < shape.d0 && 0 <= j < shape.d1 ==> |cells[i][j]| == shape.d2)
    }
  }

  /** Applies `f` to every voxel (a numpy element-wise expression). */
  function Map<T, U>(v: Vol<T>, f: T -> U): (r: Vol<U>)
    requires v.Valid()
    ensures r.Valid() && r.shape == v.shape
    ensures forall i, j, k :: v.shape.Holds(i, j, k) ==> r.cells[i][j][k] == f(v.cells[i][j][k])
  {
    var s := v.shape;
    Vol(s, seq(s.d0, i requires 0 <= i < s.d0 =>
             seq(s.d1, j requires 0 <= j < s.d1 =>
               seq(s.d2, k requires 0 <= k < s.d2 => f(v.cells[i][j][k])))))
  }

  /** numpy's `v.transpose(2, 1, 0)`: the axes in reverse order. */
  function Transpose<T>(v: Vol<T>): (r: Vol<T>)
    requires v.Valid()
    ensures r.Valid() && r.shape == v.shape.Reversed()
    ensures forall i, j, k :: r.shape.Holds(i, j, k) ==> r.cells[i][j][k] == v.cells[k][j][i]
  {
    var s := v.shape.Reversed();
    Vol(s, seq(s.d0, i requires 0 <= i < s.d0 =>
             seq(s.d1, j requires 0 <= j < s.d1 =>
               seq(s.d2, k requires 0 <= k < s.d2 => v.cells[k][j][i]))))
  }

  /** Two valid volumes of one shape that agree voxel by voxel are equal. */
  lemma Extensionality<T>(a: Vol<T>, b: Vol<T>)
    requires a.Valid() && b.Valid() && a.shape == b.shape
    requires forall i, j, k :: a.shape.Holds(i, j, k) ==> a.cells[i][j][k] == b.cells[i][j][k]
    ensures a == b
  {
    var s := a.shape;
    forall i | 0 <= i < s.d0
      ensures a.cells[i] == b.cells[i]
    {
      forall j | 0 <= j < s.d1
        ensures a.cells[i][j] == b.cells[i][j]
      {
        assert forall k :: 0 <= k < s.d2 ==> s.Holds(i, j, k);
      }
    }
  }

  /** Transposing twice gives back the original volume. */
  lemma TransposeInvolution<T>(v: Vol<T>)
    requires v.Valid()
    ensures Transpose(Transpose(v)) == v
  {
    Extensionality(Transpose(Transpose(v)), v);
  }
}

=== FILE: wrappers.dfy ===
/** The optional value used for "file present / absent" and "load failed" outcomes. */
module Wrappers {

  datatype Option<+T> = None | Some(value: T) {

    function GetOr(default: T): T {
      match this
      case Some(v) => v
      case None => default
    }
  }
}
